=== FILE: README.md ===
# Massage booking: the booking-slot state machine in Dafny

This project models the core of a small booking site. Customers pick a free
(date, hour) slot and submit a request. The request is stored as a PENDING
booking. An administrator confirms or rejects it, either by id behind a shared
secret or through an e-mailed decision link that carries the booking's
decision token. The page shows each slot as AVAILABLE, PENDING or CONFIRMED.
A retention sweep deletes bookings created more than 30 days ago.

Every route handler is a pure function. It takes the request inputs and the
record store, and returns an outcome and the new store. The store is `Db`:
`Unconfigured` (no database connection) or `Configured(records)`, where the
records are a sequence of `Booking` values. Updates go by position in that
sequence. This is the same as the source's `update where id` once ids are
unique.

The store invariants are:

- `AtMostOneConfirmed`: at most one CONFIRMED booking per slot.
- `AtMostOneOccupying`: at most one PENDING-or-CONFIRMED booking per slot.
- `UniqueKeys`: ids and decision tokens are unique.

The decision operations are proved to keep `AtMostOneConfirmed` from any
store. This includes stores where a race let in several PENDING bookings for
one slot. Intake is proved to keep `AtMostOneOccupying`.

Modules, one per file:

- `Text`: the JavaScript string functions the code relies on. These are
  `String(n)`, `Number(s)` on digit strings, `padStart(2, "0")`, `split`,
  `trim`, ASCII `toLowerCase` and `endsWith`.
- `Bookings`: the record, the store, the invariants, lookups by id and by
  token, and the status update. It also holds the decision rule shared by
  both decision entry points (`ResolvedAt`).
- `Validator`: the request schema. The Gmail pattern is run as a matcher and
  proved equal to its declarative shape.
- `Intake`: the create route.
- `AdminDecision`: the admin decision route.
- `TokenDecision`: the decision-link page.
- `Retention`: the 30-day sweep and the cleanup route.
- `Calendar`: day numbers to dates, by Hinnant's civil-from-days algorithm, and `toISODate`.
- `SlotView`: the slots route. It builds the day window and the occupancy
  map, after the inline sweep.
- `ClientPage`: the booking page's helpers. These are the time grid,
  `fmtTimeLabel`, `fmtDateShort`, `gridStatus`, cell enablement and the
  e-mail precheck in `submitBooking`.

The model follows the code in these details:

- Decisions are written by `prisma.booking.update` with no condition on the
  status still being PENDING (app/api/admin/bookings/decision/route.ts:109-112,
  app/admin/decision/page.tsx:101-106). The model is sequential, so nothing
  can change the status between the lookup and the update.
- The decision-link page sends its result e-mails without a `catch`
  (app/admin/decision/page.tsx:108). A failed send makes the page fail after
  the update was stored (`RenderError`). The admin route and intake do catch
  their mail failures.
- The schema checks only lengths for the date (at least 10) and the time (at
  least 4) (lib/validator.ts:6-7). It does not check their shape.
- The admin route checks the secret first. It then checks that the store is
  configured, and only after that checks the request body
  (app/api/admin/bookings/decision/route.ts:76-84).

## Model

| member | source | states |
|---|---|---|
| Validator.GmailRegexMeaning | lib/validator.ts:3 | The pattern accepts an e-mail exactly when it has a non-empty local part without white space or `@`, then `@`, then gmail.com or googlemail.com in any letter case, ending the string |
| Validator.GmailRegexAccepts | lib/validator.ts:3 | a@gmail.com, a@googlemail.com and A@GMAIL.COM pass the pattern |
| Validator.GmailRegexRejects | lib/validator.ts:3 | a@yahoo.com, a@gmail.co and "a b@gmail.com" fail the pattern |
| Validator.ValidMeaning | lib/validator.ts:5-11 | A request is valid exactly when date length is at least 10, time length is at least 4, name length is 1..50, phone length is 6..30 and the e-mail has the Gmail shape |
| Bookings.ParseAction | app/api/admin/bookings/decision/route.ts:82 | Only the strings "confirm" and "reject" are actions |
| Bookings.FindById | app/api/admin/bookings/decision/route.ts:86 | The lookup fails exactly when no booking has the id; otherwise it finds the first booking carrying it |
| Bookings.FindByToken | app/admin/decision/page.tsx:64-66 | The lookup fails exactly when no booking has the token; otherwise it finds the first booking carrying it |
| Bookings.FindUnique | app/admin/decision/page.tsx:64-66 | With unique keys, looking up a booking's id or token finds that very booking |
| Bookings.SetStatus | app/api/admin/bookings/decision/route.ts:109-112 | The update changes the status of the target booking and nothing else in the store |
| Bookings.SetStatusKeepsAtMostOneConfirmed | app/api/admin/bookings/decision/route.ts:97-112 | Confirming a booking keeps one CONFIRMED per slot when no booking of its slot is CONFIRMED; rejecting always keeps it |
| Bookings.SetStatusKeepsAtMostOneOccupying | app/api/admin/bookings/decision/route.ts:109-112 | Moving an occupying booking to a terminal status keeps one occupying booking per slot |
| Bookings.ConfirmIntoConfirmedSlotBreaks | app/api/admin/bookings/decision/route.ts:97-107 | Confirming a PENDING booking in a slot that already has a CONFIRMED one would break one CONFIRMED per slot, so the decision-time re-check is needed |
| Bookings.OccupyingBoundsConfirmed | app/api/bookings/create/route.ts:35-43 | The intake invariant implies the business invariant |
| Intake.CreateBooking | app/api/bookings/create/route.ts:18-57 | Checks run in this order: validation (listing the failing fields), store configured, slot free. Any refusal leaves the store unchanged. On success exactly one PENDING booking is appended with the submitted fields, the new id and token and the creation time, and the earlier bookings are kept. A colliding id or token is refused |
| Intake.CreatePreservesAtMostOneOccupying | app/api/bookings/create/route.ts:36-57 | Sequential intake keeps at most one PENDING-or-CONFIRMED booking per slot |
| Intake.CreatePreservesAtMostOneConfirmed | app/api/bookings/create/route.ts:52-57 | Intake never breaks one CONFIRMED per slot |
| Intake.CreatePreservesUniqueKeys | app/api/bookings/create/route.ts:52-57 | Intake keeps ids and tokens unique |
| Intake.CreateIgnoresMailer | app/api/bookings/create/route.ts:59-102 | Mailer configuration and send failure change neither the store nor the outcome, apart from the reported `mailerReady` flag |
| Intake.RejectedSlotAdmitsOnce | app/api/bookings/create/route.ts:36-50 | A slot whose bookings are all REJECTED admits a request, and a second request for it right after is refused as taken |
| AdminDecision.AdminDecide | app/api/admin/bookings/decision/route.ts:70-121 | Checks run in this order: secret, store, request, lookup. None of these refusals writes. A non-PENDING booking is reported as already processed and left alone. A PENDING booking is resolved by the shared decision rule: a confirm becomes an auto-rejection when the slot already has a CONFIRMED booking |
| AdminDecision.AdminDecidePreservesAtMostOneConfirmed | app/api/admin/bookings/decision/route.ts:97-112 | From any store with one CONFIRMED per slot, including one with several PENDING bookings for a slot, a decision keeps one CONFIRMED per slot |
| AdminDecision.AdminDecidePreservesAtMostOneOccupying | app/api/admin/bookings/decision/route.ts:109-112 | A decision keeps one occupying booking per slot |
| AdminDecision.AdminDecidePreservesUniqueKeys | app/api/admin/bookings/decision/route.ts:109-112 | A decision keeps ids and tokens unique |
| AdminDecision.AdminDecideOneWay | app/api/admin/bookings/decision/route.ts:89-112 | No booking is added or removed, only statuses change, and a terminal booking keeps its status |
| AdminDecision.AdminDecideIdempotent | app/api/admin/bookings/decision/route.ts:89-91 | After a decision, deciding the same booking again with either action reports it as already processed and changes nothing |
| AdminDecision.AdminRaceResolution | app/api/admin/bookings/decision/route.ts:93-112 | Two PENDING bookings for a free slot, both confirmed in turn: the first is CONFIRMED and the second is auto-rejected, whichever goes first |
| TokenDecision.Settle | app/admin/decision/page.tsx:79-108 | A PENDING booking is resolved by the same decision rule. An auto-rejection reports itself and sends no mail. Otherwise the page reports the new status, or fails when the result mail fails |
| TokenDecision.TokenDecide | app/admin/decision/page.tsx:47-114 | Checks run in this order: link, store, token lookup, status. None of these refusals writes. A non-PENDING booking is reported as already processed with its status. A PENDING booking is resolved by the decision rule. "Done" reports the status just stored, and a normal decision reports "Done" exactly when its mail succeeds |
| TokenDecision.TokenDecidePreservesAtMostOneConfirmed | app/admin/decision/page.tsx:79-106 | From any store with one CONFIRMED per slot, a decision by link keeps one CONFIRMED per slot |
| TokenDecision.TokenDecidePreservesAtMostOneOccupying | app/admin/decision/page.tsx:79-106 | A decision by link keeps one occupying booking per slot |
| TokenDecision.TokenDecidePreservesUniqueKeys | app/admin/decision/page.tsx:89-106 | A decision by link keeps ids and tokens unique |
| TokenDecision.TokenDecideIdempotent | app/admin/decision/page.tsx:71-77 | Following the same link again reports "already processed" and changes nothing |
| TokenDecision.TokenAgreesWithAdmin | app/admin/decision/page.tsx:79-106 | For the same booking and action, the link and the admin route store the same result and report it alike |
| Retention.Sweep | app/api/cron/cleanup/route.ts:28-32 | The sweep keeps exactly the bookings created at or after the cutoff, whatever their status |
| Retention.SweepCounts | app/api/cron/cleanup/route.ts:28-32 | Kept bookings keep their multiplicity, and expired ones all go |
| Retention.SweepRemovesExpired | app/api/cron/cleanup/route.ts:28-36 | The number of deleted bookings is the number of bookings older than the cutoff |
| Retention.SweepIdempotent | app/api/cron/cleanup/route.ts:28-32 | A second sweep with the same cutoff removes nothing |
| Retention.SweepKeepsApart | app/api/cron/cleanup/route.ts:28-32 | Any relation holding between every earlier and later booking still holds after the sweep |
| Retention.SweepPreservesAtMostOneOccupying | app/api/cron/cleanup/route.ts:28-32 | The sweep keeps one occupying booking per slot |
| Retention.SweepPreservesAtMostOneConfirmed | app/api/cron/cleanup/route.ts:28-32 | The sweep keeps one CONFIRMED per slot |
| Retention.SweepPreservesUniqueKeys | app/api/cron/cleanup/route.ts:28-32 | The sweep keeps ids and tokens unique |
| Retention.Cleanup | app/api/cron/cleanup/route.ts:13-38 | An unset secret, a wrong key or an unconfigured store is refused in that order without deleting. Otherwise the cutoff is now minus 2,592,000,000 ms, exactly the younger bookings remain, and the reported count is the number deleted |
| Retention.RetentionHorizonExample | app/api/cron/cleanup/route.ts:25-32 | A booking 31 days old is deleted and one 29 days old is kept |
| SlotView.DayCount | app/api/bookings/slots/route.ts:29-33 | The window has 7 days by default, at most 14, the requested number in between, and none for a zero, negative or non-numeric request |
| SlotView.Window | app/api/bookings/slots/route.ts:31-33 | The window is that many consecutive dates from the start day |
| SlotView.LastOccupyingAt | app/api/bookings/slots/route.ts:46-61 | A slot has an entry exactly when some booking occupies it, and the entry is the status of a booking occupying that slot |
| SlotView.BuildSlots | app/api/bookings/slots/route.ts:54-61 | Every window date and no other has an entry, and a time appears under a date exactly when an occupying booking holds that slot |
| SlotView.Slots | app/api/bookings/slots/route.ts:21-63 | Without a store the view is empty and nothing changes. Otherwise the store is swept unless the sweep fails, and the view is the window and the occupancy map of the swept store |
| SlotView.SlotsMeaning | app/api/bookings/slots/route.ts:46-61 | A date has an entry exactly when it is in the window, a time exactly when a surviving PENDING or CONFIRMED booking holds the slot, and each entry is the status of such a booking (never REJECTED) |
| SlotView.SlotShowsTheOccupyingRecord | app/api/bookings/slots/route.ts:58-61 | With one occupying booking per slot, the view shows exactly that booking's status |
| SlotView.AllPendingSlotShowsPending | app/api/bookings/slots/route.ts:58-61 | A slot held only by PENDING bookings, as a race can leave it, shows PENDING whichever is written last |
| SlotView.UniqueOccupyingIsLast | app/api/bookings/slots/route.ts:58-61 | The only occupying booking of a slot is the one whose status the map ends with |
| SlotView.ExpiredRecordsDoNotShow | app/api/bookings/slots/route.ts:36-52 | With the sweep working, a slot held only by bookings older than 30 days shows as free |
| Calendar.CivilFromDays | app/api/bookings/slots/route.ts:13-19 | Every day number has a calendar date with month 1..12 and day 1..31 |
| Calendar.CivilRoundTrip | app/api/bookings/slots/route.ts:7-11 | Converting a day's date back gives the day number, so the window's days are distinct calendar dates |
| Calendar.CivilFromDaysInjective | app/api/bookings/slots/route.ts:31-33 | Different day numbers give different calendar dates, so the window never repeats a date |
| Calendar.ToISODateParts | app/page.tsx:15-20 | For a year from 0 on, the ISO date splits at "-" into the year's digits and the month and day as two digits each |
| Text.ShowNat | app/page.tsx:12 | `String(n)` of a whole number below 10^21 is a non-empty digit string without a leading zero, one digit exactly below 10 |
| Text.DigitsValueOfShowNat | app/page.tsx:23 | `Number(String(n))` is `n`, for `n` read as an exact integer (see Left out) |
| Text.ShowNatInjective | app/page.tsx:12 | Different numbers render differently |
| Text.PadStart2 | app/page.tsx:12 | A string shorter than 2 is padded on the left with zeros to length 2; a longer one is unchanged |
| Text.PadStart2Value | app/page.tsx:17-18 | Zero padding keeps a digit string's value |
| Text.Split | app/page.tsx:23 | `split` gives at least one part |
| Text.SplitPartsAvoidSeparator | app/page.tsx:28 | No part of a split contains the separator |
| Text.JoinSplit | app/page.tsx:23 | Joining the parts of a split gives back the string |
| Text.SplitJoin | app/page.tsx:23 | Splitting a join of separator-free parts gives back the parts |
| Text.Trim | app/page.tsx:123 | The trimmed string is no longer than the input and starts and ends with a non-space |
| Text.TrimMeaning | app/page.tsx:123 | Trimming removes white space at both ends and nothing else |
| Text.ToLowerAscii | app/page.tsx:123 | Lower-casing maps each character through the ASCII lower-case map and keeps the length |
| ClientPage.ToNumber | app/page.tsx:23 | `Number` gives a number exactly for a string that is digits after trimming, and that number is the digits' exact decimal value (see Left out for the bound); anything else is NaN |
| ClientPage.Hour12 | app/page.tsx:30 | The 12-hour clock hour is 1..12 and agrees with the hour modulo 12 |
| ClientPage.HourLabelParts | app/page.tsx:10-13 | A whole-hour label reads back as the hour and 0 minutes |
| ClientPage.TimesEntry | app/page.tsx:10-13 | Grid entry `i` is the two-digit hour 10+i followed by ":00" and reads back as that hour |
| ClientPage.TimesEnds | app/page.tsx:8-13 | The grid has 11 entries from "10:00" to "20:00" |
| ClientPage.TimesOrdered | app/page.tsx:8-13 | The grid's hours strictly increase, so no entry repeats |
| ClientPage.FmtTimeLabelOfNumbers | app/page.tsx:27-32 | A time whose fields read as numbers is labelled by its 12-hour-clock hour, ":", the minutes padded to two digits, and PM exactly from hour 12 |
| ClientPage.FmtTimeLabelOfHour | app/page.tsx:27-32 | A whole hour is labelled with 0 and 12 shown as 12, ":00", and PM exactly from 12 |
| ClientPage.GridTimeLabels | app/page.tsx:232-235 | Each grid column header is its hour on the 12-hour clock, ":00", and AM before noon or PM from noon |
| ClientPage.FmtDateShortOfIso | app/page.tsx:22-25 | An ISO date's short label is the month and day without leading zeros, separated by "/" |
| ClientPage.FmtDateShortOfDay | app/page.tsx:242 | Each window date is labelled month/day of its calendar date |
| ClientPage.Serialise | app/api/bookings/slots/route.ts:60-63 | The map sent to the page has the same dates and times, with statuses as their upper-case names |
| ClientPage.Classify | app/page.tsx:101-104 | PENDING and CONFIRMED are copied, and anything else or a missing entry is available |
| ClientPage.GridStatus | app/page.tsx:96-108 | Every window date and every grid time get exactly one cell status, classified from the slot map |
| ClientPage.GridIgnoresOffGridTimes | app/page.tsx:100-101 | Slot map entries outside the grid's times do not affect the grid |
| ClientPage.CellEnabledIffFree | app/page.tsx:244-245 | A cell of the window is enabled exactly when no PENDING or CONFIRMED booking that survived the sweep holds its slot |
| ClientPage.EnabledCellIsBookable | app/page.tsx:244-245 | A cell is enabled exactly when intake would accept a valid request for it with fresh keys |
| ClientPage.SubmitBooking | app/page.tsx:119-146 | The Gmail check comes first, then the empty-field check. A request that goes out carries the trimmed fields, all non-empty |
| ClientPage.ServerEmailIsTrimmed | app/page.tsx:144 | An e-mail the server pattern accepts is unchanged by trimming |
| ClientPage.GmailDomainPasses | app/page.tsx:123 | A server-accepted address at gmail.com passes the page's check |
| ClientPage.GooglemailDomainFails | app/page.tsx:123 | A server-accepted address at googlemail.com fails the page's check |
| ClientPage.ClientStricterThanServer | app/page.tsx:122-127 | Among server-accepted e-mails, the page passes exactly those whose domain is gmail.com in some letter case |
| ClientPage.GooglemailTurnedAway | app/page.tsx:122-127 | a@googlemail.com is accepted by the server and turned away by the page |
| ClientPage.ClientIgnoresLocalPart | app/page.tsx:123 | Any address ending in "@gmail.com" without leading white space passes the page's check, whatever its local part |

## Left out

- Storage: Prisma and `lib/prisma.ts` are not part of this model. The store is a sequence of records, and "no database" is the explicit `Unconfigured` case. Storage failures and thrown exceptions (the routes' 500 catch-alls) are not modelled, apart from the key collision in intake.
- Mail: the mail sends and `lib/mailer.ts` are not part of this model. Intake's mailer becomes a readiness flag and a success flag. The decision page's mail becomes a success flag. The admin route's mail is caught and cannot change anything, so it is not modelled.
- Token generation: `crypto.randomBytes` and the store's id generation are oracles. The new id and token are parameters of `Intake.CreateBooking`.
- JS `Date`: `Date.now()`, local time zones and `new Date(...)` parsing are not modelled. Days are day numbers (0 is 1970-01-01), `now` is milliseconds, and "today" is a parameter. An unparseable `start` (which the source renders as "NaN-NaN-NaN") is not modelled.
- Validator.Valid: zod's `.email()` check is not modelled, so `Valid` accepts some strings the source refuses.
- Concurrency: interleavings such as the check-then-create race are not modelled. Their effect is covered by proving the decisions correct from stores with several PENDING bookings per slot.
- Requests: JSON parsing failures and non-string request values are not modelled. A missing string parameter is `""`, or `None` for secret keys.
- SlotView.DayCount: `Number` of the `days` parameter is taken as an integer or NaN. Fractional values are not modelled. An empty `days` parameter behaves as missing.
- ClientPage.ToNumber: `Number` is modelled only for digit strings after trimming. Signs, decimals, exponents and hex are NaN here. Values are exact unbounded integers, not doubles. There is no rounding above 2^53 and no `Infinity` for very long digit strings. `String` (`Text.ShowNat`) never switches to exponent form from 10^21. Only hours, minutes, months, days and years pass through these helpers, which are far below those bounds.
- String lengths are counted in characters, not UTF-16 code units. Lower-casing is modelled for ASCII letters only.
- ClientPage.GridTimeLabels: the three label examples "10:00AM", "12:00PM" and "8:00PM" are covered by this general statement for every column and are not proved as literal strings.
- ClientPage.FmtDateShortOfIso: the example "2024-06-01" → "6/1" is covered by the general statement and is not proved as a literal string. Years before 0 are not covered.
- SlotView.LastOccupyingAt: when two occupying bookings share a slot, the source's map keeps whichever `findMany` returns last. That query has no `orderBy`, so the database decides. The model takes store order. The order-free lemmas (`SlotsMeaning`, `SlotShowsTheOccupyingRecord`, `AllPendingSlotShowsPending`) hold either way. Which status shows for a slot holding both a PENDING and a CONFIRMED booking is not promised.
- SlotView.BuildSlots: JavaScript plain objects are modelled as maps. In the source, `slots[b.date][b.time] = b.status` on a plain object runs the prototype setter for a time of `"__proto__"` and adds no key. The schema checks only the time's length, so it admits that time. The model's map does contain the key. The booking page sends only the grid's times, so this case is not modelled.
- `app/admin/page.tsx` and `app/api/admin/bookings/route.ts` are not part of this model. They are UI and a secret-gated list query.
- Page state: React state, effects, the day-change timer, the `!selected` guard in `submitBooking`, and the reload after submitting are UI plumbing and are not modelled.

=== FILE: admin_decision.dfy ===
/**
 The administrator's decision route: behind a shared secret, confirm or
 reject a PENDING booking found by its id. A confirm re-checks the slot at
 decision time and turns into a rejection when the slot already holds a
 CONFIRMED booking. The decision e-mails sent afterwards are best effort and
 cannot change the result.
 */
module AdminDecision {
  import opened Bookings

  datatype AdminOutcome =
    | Unauthorized
    | DbNotConfigured
    | BadRequest
    | NotFound
      /** The booking was no longer PENDING; reported with its current state, not an error. */
    | AlreadyProcessed(booking: Booking)
      /** The updated booking; `autoRejected` carries the note "Conflict existed, auto-rejected". */
    | Decided(booking: Booking, autoRejected: bool)

  datatype AdminResult = AdminResult(outcome: AdminOutcome, db: Db)

  /** The configured secret is usable ("" stands for an unset variable) and the caller presented it. */
  predicate Authorized(adminSecret: string, key: Option<string>) {
    adminSecret != "" && key == Some(adminSecret)
  }

  /**
   `adminSecret` is the configured secret ("" when unset); `key`, `id` and
   `action` come from the request body (`id` is "" when missing).
   */
  function AdminDecide(adminSecret: string, key: Option<string>, id: string, action: string, db: Db)
    : (r: AdminResult)
    ensures !Authorized(adminSecret, key) ==> r == AdminResult(Unauthorized, db)
    ensures Authorized(adminSecret, key) && db.Unconfigured? ==> r == AdminResult(DbNotConfigured, db)
    ensures Authorized(adminSecret, key) && db.Configured? && (id == "" || ParseAction(action).None?)
      ==> r == AdminResult(BadRequest, db)
    ensures r.outcome.NotFound? <==>
      Authorized(adminSecret, key) && db.Configured? && id != "" && ParseAction(action).Some?
      && !IdInUse(db.records, id)
    ensures r.outcome.AlreadyProcessed? ==>
      r.db == db && r.outcome.booking.id == id && r.outcome.booking in db.records
      && r.outcome.booking.status != Pending
    ensures r.outcome.Decided? ==>
      && Authorized(adminSecret, key) && db.Configured? && r.db.Configured?
      && ParseAction(action).Some?
      && r.outcome.booking.id == id
      && (exists i :: ResolvedAt(db.records, i, ParseAction(action).value, r.outcome.booking.status,
                                 r.outcome.autoRejected, r.db.records)
                      && db.records[i].id == id && r.outcome.booking == r.db.records[i])
    ensures (Authorized(adminSecret, key) && db.Configured? && id != "" && ParseAction(action).Some?
             && IdInUse(db.records, id)) ==>
      var i := FindById(db.records, id).value;
      && (db.records[i].status != Pending ==> r == AdminResult(AlreadyProcessed(db.records[i]), db))
      && (db.records[i].status == Pending ==>
            r.outcome.Decided? && r.outcome.booking == r.db.records[i]
            && ResolvedAt(db.records, i, ParseAction(action).value, r.outcome.booking.status,
                          r.outcome.autoRejected, r.db.records))
    ensures !r.outcome.Decided? ==> r.db == db
  {
    if adminSecret == "" then AdminResult(Unauthorized, db)
    else if key != Some(adminSecret) then AdminResult(Unauthorized, db)
    else if db.Unconfigured? then AdminResult(DbNotConfigured, db)
    else if id == "" || ParseAction(action).None? then AdminResult(BadRequest, db)
    else
      var rs := db.records;
      match FindById(rs, id)
      case None => AdminResult(NotFound, db)
      case Some(i) =>
        var b := rs[i];
        if b.status != Pending then AdminResult(AlreadyProcessed(b), db)
        else
          var act := ParseAction(action).value;
          var requested := if act == Confirm then Confirmed else Rejected;
          var conflict := act == Confirm && HasConfirmedAt(rs, b.date, b.time);
          var newStatus := if conflict then Rejected else requested;
          var rs' := SetStatus(rs, i, newStatus);
          AdminResult(Decided(rs'[i], conflict), Configured(rs'))
  }

  /**
   From ANY store with at most one CONFIRMED record per slot, including one
   holding several PENDING records for the same slot, an admin decision keeps
   at most one CONFIRMED record per slot.
   */
  lemma AdminDecidePreservesAtMostOneConfirmed(
    adminSecret: string, key: Option<string>, id: string, action: string, rs: seq<Booking>)
    requires AtMostOneConfirmed(rs)
    ensures AtMostOneConfirmed(AdminDecide(adminSecret, key, id, action, Configured(rs)).db.records)
  {
    var r := AdminDecide(adminSecret, key, id, action, Configured(rs));
    if r.outcome.Decided? {
      var i := FindById(rs, id).value;
      SetStatusKeepsAtMostOneConfirmed(rs, i, r.outcome.booking.status);
    }
  }

  /** An admin decision keeps at most one PENDING-or-CONFIRMED record per slot. */
  lemma AdminDecidePreservesAtMostOneOccupying(
    adminSecret: string, key: Option<string>, id: string, action: string, rs: seq<Booking>)
    requires AtMostOneOccupying(rs)
    ensures AtMostOneOccupying(AdminDecide(adminSecret, key, id, action, Configured(rs)).db.records)
  {
    var r := AdminDecide(adminSecret, key, id, action, Configured(rs));
    if r.outcome.Decided? {
      var i := FindById(rs, id).value;
      SetStatusKeepsAtMostOneOccupying(rs, i, r.outcome.booking.status);
    }
  }

  /** An admin decision keeps ids and tokens unique. */
  lemma AdminDecidePreservesUniqueKeys(
    adminSecret: string, key: Option<string>, id: string, action: string, rs: seq<Booking>)
    requires UniqueKeys(rs)
    ensures UniqueKeys(AdminDecide(adminSecret, key, id, action, Configured(rs)).db.records)
  {
  }

  /**
   Status changes are one-way: no record is added or removed, every field
   but the status is kept, and a terminal record keeps its status.
   */
  lemma AdminDecideOneWay(adminSecret: string, key: Option<string>, id: string, action: string, rs: seq<Booking>)
    ensures var rs' := AdminDecide(adminSecret, key, id, action, Configured(rs)).db.records;
      |rs'| == |rs| && forall k :: 0 <= k < |rs| ==> OneWayStep(rs[k], rs'[k])
  {
  }

  /**
   Re-applying a decision, with either action, reports "Already processed"
   with the stored booking and changes nothing.
   */
  lemma AdminDecideIdempotent(
    adminSecret: string, key: Option<string>, id: string, action: string, action2: string, rs: seq<Booking>)
    requires ParseAction(action2).Some?
    ensures var r := AdminDecide(adminSecret, key, id, action, Configured(rs));
      r.outcome.Decided? ==>
        AdminDecide(adminSecret, key, id, action2, r.db) == AdminResult(AlreadyProcessed(r.outcome.booking), r.db)
  {
    var r := AdminDecide(adminSecret, key, id, action, Configured(rs));
    if r.outcome.Decided? {
      var i := FindById(rs, id).value;
      var rs' := r.db.records;
      assert forall k :: 0 <= k < |rs| ==> rs'[k].id == rs[k].id;
      assert FindById(rs', id) == Some(i);
    }
  }

  /**
   Two PENDING requests for a free slot, both confirmed one after the other:
   the first becomes CONFIRMED and the second is auto-rejected, whichever of
   the two is decided first.
   */
  lemma AdminRaceResolution(adminSecret: string, rs: seq<Booking>, i: nat, j: nat)
    requires UniqueKeys(rs) && i < |rs| && j < |rs| && i != j
    requires adminSecret != "" && rs[i].id != "" && rs[j].id != ""
    requires rs[i].status == Pending && rs[j].status == Pending && SameSlot(rs[i], rs[j])
    requires !HasConfirmedAt(rs, rs[i].date, rs[i].time)
    ensures var r1 := AdminDecide(adminSecret, Some(adminSecret), rs[i].id, "confirm", Configured(rs));
      var r2 := AdminDecide(adminSecret, Some(adminSecret), rs[j].id, "confirm", r1.db);
      && r1.outcome.Decided? && r1.outcome.booking.status == Confirmed && !r1.outcome.autoRejected
      && r2.outcome.Decided? && r2.outcome.booking.status == Rejected && r2.outcome.autoRejected
      && r2.db.records[i].status == Confirmed && r2.db.records[j].status == Rejected
  {
    FindUnique(rs, i);
    var rs1 := SetStatus(rs, i, Confirmed);
    SetStatusKeepsUniqueKeys(rs, i, Confirmed);
    FindUnique(rs1, j);
    assert rs1[j] == rs[j];
    assert AtSlot(rs1[i], rs[j].date, rs[j].time) && rs1[i].status == Confirmed;
  }
}

=== FILE: bookings.dfy ===
/**
 The booking record, the record store and the invariants of the slot state
 machine. A slot is a (date, time) pair; a record occupies its slot while it
 is PENDING or CONFIRMED.
 */
module Bookings {

  datatype Option<T> = None | Some(value: T)

  datatype Status = Pending | Confirmed | Rejected

  datatype Booking = Booking(
    id: string,
    date: string,
    time: string,
    name: string,
    phone: string,
    email: string,
    status: Status,
    decisionToken: string,
    createdAt: int)

  /**
   The record store. `Unconfigured` is the deployment without a database
   connection, which every route checks for and reports instead of failing.
   */
  datatype Db = Unconfigured | Configured(records: seq<Booking>)

  /** The decision an administrator asks for. */
  datatype Action = Confirm | Reject

  /** The request's `action` parameter; anything but "confirm" or "reject" is refused. */
  function ParseAction(s: string): (r: Option<Action>)
    ensures r == Some(Confirm) <==> s == "confirm"
    ensures r == Some(Reject) <==> s == "reject"
  {
    if s == "confirm" then Some(Confirm) else if s == "reject" then Some(Reject) else None
  }

  /** A record blocks its slot for new requests while it is PENDING or CONFIRMED. */
  predicate Occupies(b: Booking) {
    b.status == Pending || b.status == Confirmed
  }

  predicate AtSlot(b: Booking, date: string, time: string) {
    b.date == date && b.time == time
  }

  predicate SameSlot(a: Booking, b: Booking) {
    a.date == b.date && a.time == b.time
  }

  /** Some record at (date, time) is CONFIRMED. */
  predicate HasConfirmedAt(rs: seq<Booking>, date: string, time: string) {
    exists i :: 0 <= i < |rs| && AtSlot(rs[i], date, time) && rs[i].status == Confirmed
  }

  /** Some record at (date, time) is PENDING or CONFIRMED. */
  predicate HasOccupyingAt(rs: seq<Booking>, date: string, time: string) {
    exists i :: 0 <= i < |rs| && AtSlot(rs[i], date, time) && Occupies(rs[i])
  }

  /** The business invariant: at most one CONFIRMED record per slot. */
  ghost predicate AtMostOneConfirmed(rs: seq<Booking>) {
    forall i, j :: 0 <= i < j < |rs| && rs[i].status == Confirmed && rs[j].status == Confirmed
      ==> !SameSlot(rs[i], rs[j])
  }

  /** The intake invariant: at most one PENDING-or-CONFIRMED record per slot. */
  ghost predicate AtMostOneOccupying(rs: seq<Booking>) {
    forall i, j :: 0 <= i < j < |rs| && Occupies(rs[i]) && Occupies(rs[j]) ==> !SameSlot(rs[i], rs[j])
  }

  /** Record ids and decision tokens are unique, as the store's key constraints demand. */
  ghost predicate UniqueKeys(rs: seq<Booking>) {
    forall i, j :: 0 <= i < j < |rs| ==> rs[i].id != rs[j].id && rs[i].decisionToken != rs[j].decisionToken
  }

  predicate IdInUse(rs: seq<Booking>, id: string) {
    exists i :: 0 <= i < |rs| && rs[i].id == id
  }

  predicate TokenInUse(rs: seq<Booking>, token: string) {
    exists i :: 0 <= i < |rs| && rs[i].decisionToken == token
  }

  /** The position of the record with this id (the first one, should there be several). */
  function FindById(rs: seq<Booking>, id: string): (r: Option<nat>)
    ensures r.None? <==> !IdInUse(rs, id)
    ensures r.Some? ==> r.value < |rs| && rs[r.value].id == id
    ensures r.Some? ==> forall k :: 0 <= k < r.value ==> rs[k].id != id
  {
    if |rs| == 0 then None
    else if rs[0].id == id then Some(0)
    else match FindById(rs[1..], id)
      case None => None
      case Some(k) => Some(k + 1)
  }

  /** The position of the record carrying this decision token. */
  function FindByToken(rs: seq<Booking>, token: string): (r: Option<nat>)
    ensures r.None? <==> !TokenInUse(rs, token)
    ensures r.Some? ==> r.value < |rs| && rs[r.value].decisionToken == token
    ensures r.Some? ==> forall k :: 0 <= k < r.value ==> rs[k].decisionToken != token
  {
    if |rs| == 0 then None
    else if rs[0].decisionToken == token then Some(0)
    else match FindByToken(rs[1..], token)
      case None => None
      case Some(k) => Some(k + 1)
  }

  /** Under unique keys the lookup finds exactly the record that carries the key. */
  lemma FindUnique(rs: seq<Booking>, i: nat)
    requires UniqueKeys(rs) && i < |rs|
    ensures FindById(rs, rs[i].id) == Some(i)
    ensures FindByToken(rs, rs[i].decisionToken) == Some(i)
  {
  }

  /** Only the status of record `i` changes: the store's `update ... where id`. */
  function SetStatus(rs: seq<Booking>, i: nat, s: Status): (rs': seq<Booking>)
    requires i < |rs|
    ensures |rs'| == |rs| && rs'[i] == rs[i].(status := s)
    ensures forall k :: 0 <= k < |rs| && k != i ==> rs'[k] == rs[k]
  {
    rs[i := rs[i].(status := s)]
  }

  /**
   Moving a PENDING record to CONFIRMED keeps at most one CONFIRMED per slot
   when no record of its slot was CONFIRMED before (and only then, by
   ConfirmIntoConfirmedSlotBreaks); moving it to REJECTED always keeps it. This is the whole correctness argument of the
   decision re-check.
   */
  lemma SetStatusKeepsAtMostOneConfirmed(rs: seq<Booking>, i: nat, s: Status)
    requires i < |rs| && AtMostOneConfirmed(rs)
    requires s == Confirmed ==> !HasConfirmedAt(rs, rs[i].date, rs[i].time)
    ensures AtMostOneConfirmed(SetStatus(rs, i, s))
  {
    var rs' := SetStatus(rs, i, s);
    forall a, b | 0 <= a < b < |rs'| && rs'[a].status == Confirmed && rs'[b].status == Confirmed
      ensures !SameSlot(rs'[a], rs'[b])
    {
      if a == i {
        assert rs'[b] == rs[b] && rs[b].status == Confirmed;
      } else if b == i {
        assert rs'[a] == rs[a] && rs[a].status == Confirmed;
      }
    }
  }

  /**
   The converse: confirming a PENDING record in a slot that already holds a
   CONFIRMED record breaks the invariant, so the re-check cannot be dropped.
   */
  lemma ConfirmIntoConfirmedSlotBreaks(rs: seq<Booking>, i: nat)
    requires i < |rs| && rs[i].status == Pending
    requires HasConfirmedAt(rs, rs[i].date, rs[i].time)
    ensures !AtMostOneConfirmed(SetStatus(rs, i, Confirmed))
  {
    var j :| 0 <= j < |rs| && AtSlot(rs[j], rs[i].date, rs[i].time) && rs[j].status == Confirmed;
    var rs' := SetStatus(rs, i, Confirmed);
    assert j != i && rs'[j] == rs[j];
    if j < i {
      assert rs'[j].status == Confirmed && rs'[i].status == Confirmed && SameSlot(rs'[j], rs'[i]);
    } else {
      assert rs'[i].status == Confirmed && rs'[j].status == Confirmed && SameSlot(rs'[i], rs'[j]);
    }
  }

  /** The same for the occupancy invariant, when the record keeps occupying or is released. */
  lemma SetStatusKeepsAtMostOneOccupying(rs: seq<Booking>, i: nat, s: Status)
    requires i < |rs| && AtMostOneOccupying(rs)
    requires Occupies(rs[i]) || s == Rejected
    ensures AtMostOneOccupying(SetStatus(rs, i, s))
  {
    var rs' := SetStatus(rs, i, s);
    forall a, b | 0 <= a < b < |rs'| && Occupies(rs'[a]) && Occupies(rs'[b])
      ensures !SameSlot(rs'[a], rs'[b])
    {
      assert Occupies(rs[a]) && Occupies(rs[b]);
    }
  }

  /** A status change keeps ids and tokens, hence their uniqueness. */
  lemma SetStatusKeepsUniqueKeys(rs: seq<Booking>, i: nat, s: Status)
    requires i < |rs| && UniqueKeys(rs)
    ensures UniqueKeys(SetStatus(rs, i, s))
  {
  }

  /** One CONFIRMED-or-PENDING per slot implies one CONFIRMED per slot. */
  lemma OccupyingBoundsConfirmed(rs: seq<Booking>)
    requires AtMostOneOccupying(rs)
    ensures AtMostOneConfirmed(rs)
  {
  }

  /**
   The decision rule both decision entry points follow for the PENDING
   record `i`: a reject rejects; a confirm confirms unless the slot already
   holds a CONFIRMED record, in which case it is auto-rejected. Only that
   record's status changes.
   */
  ghost predicate ResolvedAt(rs: seq<Booking>, i: int, act: Action, newStatus: Status, autoRejected: bool,
                             rs': seq<Booking>) {
    && 0 <= i < |rs| && rs[i].status == Pending
    && rs' == SetStatus(rs, i, newStatus)
    && newStatus != Pending
    && (newStatus == Confirmed <==> act == Confirm && !HasConfirmedAt(rs, rs[i].date, rs[i].time))
    && (autoRejected <==> act == Confirm && HasConfirmedAt(rs, rs[i].date, rs[i].time))
  }

  /** A terminal record keeps its status; a PENDING one may move to a terminal status. */
  ghost predicate OneWayStep(before: Booking, after: Booking) {
    after.(status := before.status) == before
    && (before.status != Pending ==> after.status == before.status)
  }
}

=== FILE: calendar.dfy ===
/**
 Calendar dates. Days are numbered consecutively, day 0 being 1970-01-01 in
 the proleptic Gregorian calendar; `toISODate` renders a date as
 year-month-day with the month and day padded to two digits.
 */
module Calendar {
  import opened Text

  datatype CivilDate = CivilDate(year: int, month: int, day: int)

  lemma YearOfEraBounds(doe: int)
    requires 0 <= doe < 146097
    ensures 0 <= (doe - doe / 1460 + doe / 36524 - doe / 146096) / 365 <= 399
  {
  }

  lemma DayOfYearBounds(doe: int, yoe: int)
    requires 0 <= doe < 146097
    requires yoe == (doe - doe / 1460 + doe / 36524 - doe / 146096) / 365
    ensures 0 <= doe - (365 * yoe + yoe / 4 - yoe / 100) <= 365
  {
    var a, b, c := doe / 1460, doe / 36524, doe / 146096;
    assert 0 <= b <= 4 && 0 <= c <= 1;
    assert yoe / 100 == b - c;
    var q, r := yoe / 4, yoe % 4;
    assert yoe == 4 * q + r;
    if b == 0 {
    } else if b == 1 {
    } else if b == 2 {
    } else if b == 3 {
    } else {
    }
  }

  lemma MonthBounds(doy: int)
    requires 0 <= doy <= 365
    ensures 0 <= (5 * doy + 2) / 153 <= 11
    ensures 1 <= doy - (153 * ((5 * doy + 2) / 153) + 2) / 5 + 1 <= 31
  {
  }

  /** The calendar date of day `doe` of a 400-year era, in the era's March-based reckoning. */
  function CivilOfEraDay(era: int, doe: int): (c: CivilDate)
    requires 0 <= doe < 146097
    ensures 1 <= c.month <= 12 && 1 <= c.day <= 31
  {
    var yoe := (doe - doe / 1460 + doe / 36524 - doe / 146096) / 365;
    YearOfEraBounds(doe);
    DayOfYearBounds(doe, yoe);
    var y := yoe + era * 400;
    var doy := doe - (365 * yoe + yoe / 4 - yoe / 100);
    MonthBounds(doy);
    var mp := (5 * doy + 2) / 153;
    var d := doy - (153 * mp + 2) / 5 + 1;
    var m := if mp < 10 then mp + 3 else mp - 9;
    CivilDate(if m <= 2 then y + 1 else y, m, d)
  }

  /** The calendar date of a day number (H. Hinnant's civil-from-days algorithm). */
  function CivilFromDays(n: int): (c: CivilDate)
    ensures 1 <= c.month <= 12 && 1 <= c.day <= 31
  {
    var z := n + 719468;
    var era := z / 146097;
    CivilOfEraDay(era, z - era * 146097)
  }

  /** The day number of a calendar date (H. Hinnant's days-from-civil algorithm). */
  function DaysFromCivil(c: CivilDate): int {
    var y := if c.month <= 2 then c.year - 1 else c.year;
    var era := y / 400;
    var yoe := y - era * 400;
    var mp := if c.month > 2 then c.month - 3 else c.month + 9;
    var doy := (153 * mp + 2) / 5 + c.day - 1;
    var doe := yoe * 365 + yoe / 4 - yoe / 100 + doy;
    era * 146097 + doe - 719468
  }

  /** A date built from an era, a year of the era, a day of the year and a March-based month. */
  lemma DaysFromParts(c: CivilDate, era: int, yoe: int, doy: int, mp: int)
    requires 0 <= yoe <= 399 && 0 <= mp <= 11
    requires c.month == (if mp < 10 then mp + 3 else mp - 9)
    requires c.year == (if c.month <= 2 then yoe + era * 400 + 1 else yoe + era * 400)
    requires c.day == doy - (153 * mp + 2) / 5 + 1
    ensures DaysFromCivil(c) == era * 146097 + (yoe * 365 + yoe / 4 - yoe / 100 + doy) - 719468
  {
    var y := yoe + era * 400;
    assert y / 400 == era;
  }

  /** Converting a day of an era back gives the era's first day number plus `doe`. */
  lemma EraDayRoundTrip(era: int, doe: int)
    requires 0 <= doe < 146097
    ensures DaysFromCivil(CivilOfEraDay(era, doe)) == era * 146097 + doe - 719468
  {
    var yoe := (doe - doe / 1460 + doe / 36524 - doe / 146096) / 365;
    YearOfEraBounds(doe);
    DayOfYearBounds(doe, yoe);
    var doy := doe - (365 * yoe + yoe / 4 - yoe / 100);
    MonthBounds(doy);
    var mp := (5 * doy + 2) / 153;
    var m := if mp < 10 then mp + 3 else mp - 9;
    var y := yoe + era * 400;
    var c := CivilOfEraDay(era, doe);
    assert c == CivilDate(if m <= 2 then y + 1 else y, m, doy - (153 * mp + 2) / 5 + 1);
    DaysFromParts(c, era, yoe, doy, mp);
    assert yoe * 365 + yoe / 4 - yoe / 100 + doy == doe;
  }

  /** Converting a day number to its date and back gives the day number. */
  lemma CivilRoundTrip(n: int)
    ensures DaysFromCivil(CivilFromDays(n)) == n
  {
    var z := n + 719468;
    var era := z / 146097;
    EraDayRoundTrip(era, z - era * 146097);
  }

  /** Different day numbers have different dates. */
  lemma CivilFromDaysInjective(a: int, b: int)
    requires CivilFromDays(a) == CivilFromDays(b)
    ensures a == b
  {
    CivilRoundTrip(a);
    CivilRoundTrip(b);
  }

  /** `toISODate`: the year as `String` renders it, then month and day padded to two digits. */
  function ToISODate(c: CivilDate): string {
    ShowInt(c.year) + "-" + PadStart2(ShowInt(c.month)) + "-" + PadStart2(ShowInt(c.day))
  }

  /** The ISO string of a day number. */
  function IsoDate(n: int): string {
    ToISODate(CivilFromDays(n))
  }

  /**
   For a year from 0 on, the ISO string has exactly three dash-separated
   parts: the year's digits, and the month and day as two digits each.
   */
  lemma ToISODateParts(c: CivilDate)
    requires c.year >= 0 && 1 <= c.month <= 12 && 1 <= c.day <= 31
    ensures Split(ToISODate(c), '-') ==
      [ShowNat(c.year), PadStart2(ShowNat(c.month)), PadStart2(ShowNat(c.day))]
    ensures |PadStart2(ShowNat(c.month))| == 2 && |PadStart2(ShowNat(c.day))| == 2
  {
    var y, m, d := ShowNat(c.year), PadStart2(ShowNat(c.month)), PadStart2(ShowNat(c.day));
    PadStart2Value(ShowNat(c.month));
    PadStart2Value(ShowNat(c.day));
    DigitsExclude(y, '-');
    DigitsExclude(m, '-');
    DigitsExclude(d, '-');
    JoinThree(y, m, d, '-');
    var parts := [y, m, d];
    assert ToISODate(c) == Join(parts, '-');
    SplitJoin(parts, '-');
  }
}

=== FILE: client_page.dfy ===
/**
 The booking page's pure helpers: the fixed hourly time grid, the date and
 time labels, the classification of the server's slot map into grid cells,
 which cells can be booked, and the e-mail precheck before a request is sent.
 */
module ClientPage {
  import opened Text
  import opened Bookings
  import Calendar
  import Validator
  import Intake
  import SlotView

  const START_HOUR: nat := 10
  const END_HOUR: nat := 20

  /** A whole hour as the grid writes it: two-digit hour, then ":00". */
  function HourLabel(h: int): string {
    PadStart2(ShowInt(h)) + ":00"
  }

  /** `TIMES`: one entry per hour from START_HOUR to END_HOUR inclusive. */
  function Times(): seq<string> {
    seq(END_HOUR - START_HOUR + 1, i => HourLabel(START_HOUR + i))
  }

  /** A JavaScript value as the label helpers see it after `map(Number)` and destructuring. */
  datatype JsValue = Num(n: nat) | NaN | Undefined

  /**
   `Number(s)`: surrounding white space is ignored and a string of decimal
   digits (the empty string included) is its value; every other string is NaN.
   */
  function ToNumber(s: string): (v: JsValue)
    ensures v.Num? <==> AllDigits(Trim(s))
    ensures v.Num? ==> v.n == DigitsValue(Trim(s))
    ensures !v.Num? ==> v == NaN
  {
    if AllDigits(Trim(s)) then Num(DigitsValue(Trim(s))) else NaN
  }

  /** `String(v)` */
  function JsString(v: JsValue): string {
    match v
    case Num(n) => ShowNat(n)
    case NaN => "NaN"
    case Undefined => "undefined"
  }

  /** The destructured element `parts[i]` mapped through `Number`, or undefined past the end. */
  function NumberAt(parts: seq<string>, i: nat): JsValue {
    if i < |parts| then ToNumber(parts[i]) else Undefined
  }

  /** The hour field of a time string, as `fmtTimeLabel` reads it: the first `:`-part through `Number`. */
  function HourOf(t: string): JsValue {
    NumberAt(Split(t, ':'), 0)
  }

  /** The minutes field: the second `:`-part through `Number`, undefined when there is none. */
  function MinuteOf(t: string): JsValue {
    NumberAt(Split(t, ':'), 1)
  }

  /** `hh % 12 === 0 ? 12 : hh % 12`; NaN stays NaN. */
  function Hour12(hh: JsValue): (h: JsValue)
    ensures hh.Num? ==> h.Num? && 1 <= h.n <= 12 && h.n % 12 == hh.n % 12
  {
    if hh.Num? then (if hh.n % 12 == 0 then Num(12) else Num(hh.n % 12)) else NaN
  }

  /** `hh >= 12 ? "PM" : "AM"`; a NaN hour compares false. */
  function Meridiem(hh: JsValue): string {
    if hh.Num? && hh.n >= 12 then "PM" else "AM"
  }

  /**
   `fmtTimeLabel`: hour on the 12-hour clock (0 and 12 shown as 12), the
   minutes padded to two digits, then AM or PM (PM from hour 12 on). A
   non-numeric hour renders as NaN with AM.
   */
  function FmtTimeLabel(t: string): string {
    JsString(Hour12(HourOf(t))) + ":" + PadStart2(JsString(MinuteOf(t))) + Meridiem(HourOf(t))
  }

  /** A digit string is read back as its value. */
  lemma NumberOfDigits(s: string)
    requires AllDigits(s)
    ensures ToNumber(s) == Num(DigitsValue(s))
  {
    forall i | 0 <= i < |s| ensures !IsJsSpace(s[i]) {
      assert IsDigit(s[i]);
    }
    TrimNoSpace(s);
  }

  /** "00" reads as 0. */
  lemma NumberOfZeroZero()
    ensures ToNumber("00") == Num(0)
  {
    var z := "00";
    assert AllDigits(z);
    assert z[..1] == "0" && DigitsValue(z[..1]) == 0;
    assert DigitsValue(z) == 0;
    NumberOfDigits(z);
  }

  /** A whole-hour label splits into the padded hour and "00". */
  lemma SplitHourLabel(h: int)
    requires h >= 0
    ensures Split(HourLabel(h), ':') == [PadStart2(ShowNat(h)), "00"]
  {
    var p := PadStart2(ShowNat(h));
    assert ShowInt(h) == ShowNat(h);
    PadStart2Value(ShowNat(h));
    DigitsExclude(p, ':');
    var z := "00";
    assert ':' !in z by {
      assert z[0] != ':' && z[1] != ':';
    }
    SplitAfterPrefix(p, ':', z);
    SplitNoSeparator(z, ':');
    assert HourLabel(h) == p + [':'] + z;
  }

  /** A whole-hour label reads back as the hour `h` and the minutes 0. */
  lemma HourLabelParts(h: nat)
    ensures HourOf(HourLabel(h)) == Num(h)
    ensures MinuteOf(HourLabel(h)) == Num(0)
  {
    SplitHourLabel(h);
    var p := PadStart2(ShowNat(h));
    PadStart2Value(ShowNat(h));
    DigitsValueOfShowNat(h);
    NumberOfDigits(p);
    NumberOfZeroZero();
  }

  /** The renderings of the grid's first hour, noon and last hour. */
  lemma SmallNumbers()
    ensures ShowNat(10) == "10" && ShowNat(12) == "12" && ShowNat(20) == "20"
  {
    assert ShowNat(1) == "1" && ShowNat(0) == "0" && ShowNat(2) == "2";
  }

  /** Each grid entry is the label of hour `10 + i`, and reads back as that hour. */
  lemma TimesEntry(i: nat)
    requires i < |Times()|
    ensures |Times()| == 11
    ensures Times()[i] == PadStart2(ShowNat(START_HOUR + i)) + ":00"
    ensures HourOf(Times()[i]) == Num(START_HOUR + i)
  {
    var h := START_HOUR + i;
    assert Times()[i] == HourLabel(h);
    assert ShowInt(h) == ShowNat(h);
    HourLabelParts(h);
  }

  /** The labels of the grid's first hour, noon and last hour. */
  lemma HourLabelValues()
    ensures HourLabel(10) == "10:00" && HourLabel(12) == "12:00" && HourLabel(20) == "20:00"
  {
    SmallNumbers();
    assert ShowInt(10) == "10" && ShowInt(12) == "12" && ShowInt(20) == "20";
    assert PadStart2("10") == "10" && PadStart2("12") == "12" && PadStart2("20") == "20";
  }

  /** The grid has eleven entries, from "10:00" to "20:00". */
  lemma TimesEnds()
    ensures |Times()| == 11 && Times()[0] == "10:00" && Times()[10] == "20:00"
  {
    HourLabelValues();
    assert Times()[0] == HourLabel(10) && Times()[10] == HourLabel(20);
  }

  /** Entry `i` stands for hour `10 + i`, so the hours strictly increase and no entry repeats. */
  lemma TimesOrdered()
    ensures forall i :: 0 <= i < |Times()| ==> HourOf(Times()[i]) == Num(START_HOUR + i)
    ensures forall i, j :: 0 <= i < j < |Times()| ==> HourOf(Times()[i]).n < HourOf(Times()[j]).n
    ensures forall i, j :: 0 <= i < j < |Times()| ==> Times()[i] != Times()[j]
  {
    forall i | 0 <= i < |Times()| ensures HourOf(Times()[i]) == Num(START_HOUR + i) {
      TimesEntry(i);
    }
  }

  /** A time whose fields read as numbers is labelled from those numbers alone. */
  lemma FmtTimeLabelOfNumbers(t: string, hh: nat, mm: nat)
    requires HourOf(t) == Num(hh) && MinuteOf(t) == Num(mm)
    ensures FmtTimeLabel(t) ==
      ShowNat(if hh % 12 == 0 then 12 else hh % 12) + ":" + PadStart2(ShowNat(mm)) + (if hh >= 12 then "PM" else "AM")
  {
    var a, b := HourOf(t), MinuteOf(t);
    assert FmtTimeLabel(t) == JsString(Hour12(a)) + ":" + PadStart2(JsString(b)) + Meridiem(a);
    assert JsString(Hour12(a)) == ShowNat(if hh % 12 == 0 then 12 else hh % 12);
    assert JsString(b) == ShowNat(mm);
    assert Meridiem(a) == if hh >= 12 then "PM" else "AM";
  }

  /** Zero minutes render as ":00" between any hour text and any suffix. */
  lemma ZeroMinutesLabel(hour: string, suffix: string)
    ensures hour + ":" + PadStart2(ShowNat(0)) + suffix == hour + ":00" + suffix
  {
    assert PadStart2(ShowNat(0)) == "00";
  }

  /**
   The label of a whole hour `h`: the hour on the 12-hour clock with 0 and 12
   shown as 12, ":00", and PM exactly when `h` is 12 or later.
   */
  lemma FmtTimeLabelOfHour(h: nat)
    ensures FmtTimeLabel(HourLabel(h)) ==
      ShowNat(if h % 12 == 0 then 12 else h % 12) + ":00" + (if h >= 12 then "PM" else "AM")
  {
    HourLabelParts(h);
    FmtTimeLabelOfNumbers(HourLabel(h), h, 0);
    ZeroMinutesLabel(ShowNat(if h % 12 == 0 then 12 else h % 12), if h >= 12 then "PM" else "AM");
  }

  /** Every grid column is labelled with its hour on the 12-hour clock and AM before noon, PM from noon on. */
  lemma GridTimeLabels(i: nat)
    requires i < |Times()|
    ensures var h := START_HOUR + i;
      FmtTimeLabel(Times()[i]) == ShowNat(if h % 12 == 0 then 12 else h % 12) + ":00" + (if h >= 12 then "PM" else "AM")
  {
    assert Times()[i] == HourLabel(START_HOUR + i);
    FmtTimeLabelOfHour(START_HOUR + i);
  }

  /** `fmtDateShort`: the month and day of a dash-separated date, as numbers, joined by "/". */
  function FmtDateShort(iso: string): string {
    var parts := Split(iso, '-');
    JsString(NumberAt(parts, 1)) + "/" + JsString(NumberAt(parts, 2))
  }

  /** A zero-padded rendering reads back as the number. */
  lemma PaddedReadsBack(n: nat)
    ensures ToNumber(PadStart2(ShowNat(n))) == Num(n)
  {
    PadStart2Value(ShowNat(n));
    DigitsValueOfShowNat(n);
    NumberOfDigits(PadStart2(ShowNat(n)));
  }

  /** On an ISO date from year 0 on, the short label is month/day without leading zeros. */
  lemma FmtDateShortOfIso(c: Calendar.CivilDate)
    requires c.year >= 0 && 1 <= c.month <= 12 && 1 <= c.day <= 31
    ensures FmtDateShort(Calendar.ToISODate(c)) == ShowNat(c.month) + "/" + ShowNat(c.day)
  {
    Calendar.ToISODateParts(c);
    var parts := Split(Calendar.ToISODate(c), '-');
    assert parts[1] == PadStart2(ShowNat(c.month)) && parts[2] == PadStart2(ShowNat(c.day));
    PaddedReadsBack(c.month);
    PaddedReadsBack(c.day);
    assert NumberAt(parts, 1) == Num(c.month) && NumberAt(parts, 2) == Num(c.day);
  }

  /** The label of a day of the window, for days from year 0 on. */
  lemma FmtDateShortOfDay(n: int)
    requires Calendar.CivilFromDays(n).year >= 0
    ensures var c := Calendar.CivilFromDays(n);
      FmtDateShort(Calendar.IsoDate(n)) == ShowNat(c.month) + "/" + ShowNat(c.day)
  {
    FmtDateShortOfIso(Calendar.CivilFromDays(n));
  }

  /** The status a grid cell shows. */
  datatype CellStatus = Available | PendingCell | ConfirmedCell

  /** The slot map as it travels to the page: statuses as their upper-case names. */
  type RawSlots = map<string, map<string, string>>

  function StatusName(s: Status): string {
    match s
    case Pending => "PENDING"
    case Confirmed => "CONFIRMED"
    case Rejected => "REJECTED"
  }

  /** The view's slot map serialised for the page. */
  function Serialise(m: SlotView.SlotMap): (raw: RawSlots)
    ensures raw.Keys == m.Keys
    ensures forall d :: d in m ==> raw[d].Keys == m[d].Keys
    ensures forall d, t :: d in m && t in m[d] ==> raw[d][t] == StatusName(m[d][t])
  {
    map d | d in m :: map t | t in m[d] :: StatusName(m[d][t])
  }

  /** `slots?.[d]?.[t]`: the entry, if both levels are present. */
  function Lookup(slots: RawSlots, d: string, t: string): Option<string> {
    if d in slots && t in slots[d] then Some(slots[d][t]) else None
  }

  /** PENDING and CONFIRMED are copied; any other value or a missing entry is AVAILABLE. */
  function Classify(s: Option<string>): (c: CellStatus)
    ensures c == PendingCell <==> s == Some("PENDING")
    ensures c == ConfirmedCell <==> s == Some("CONFIRMED")
  {
    if s == Some("PENDING") then PendingCell
    else if s == Some("CONFIRMED") then ConfirmedCell
    else Available
  }

  /** `gridStatus`: a status for every window date and every grid time. */
  function GridStatus(dates: seq<string>, slots: RawSlots): (g: map<string, map<string, CellStatus>>)
    ensures g.Keys == set d | d in dates
    ensures forall d, t :: d in g ==> (t in g[d] <==> t in Times())
    ensures forall d, t :: d in g && t in g[d] ==> g[d][t] == Classify(Lookup(slots, d, t))
  {
    map d | d in dates :: map t | t in Times() :: Classify(Lookup(slots, d, t))
  }

  /** `gridStatus?.[d]?.[t] ?? "AVAILABLE"`: the status a rendered cell uses. */
  function CellAt(g: map<string, map<string, CellStatus>>, d: string, t: string): CellStatus {
    if d in g && t in g[d] then g[d][t] else Available
  }

  /** A cell's button is enabled exactly when it shows AVAILABLE. */
  predicate CellEnabled(st: CellStatus) {
    st == Available
  }

  /** Entries for times outside the grid leave the grid unchanged. */
  lemma GridIgnoresOffGridTimes(dates: seq<string>, s1: RawSlots, s2: RawSlots)
    requires forall d, t :: d in dates && t in Times() ==> Lookup(s1, d, t) == Lookup(s2, d, t)
    ensures GridStatus(dates, s1) == GridStatus(dates, s2)
  {
    var g1, g2 := GridStatus(dates, s1), GridStatus(dates, s2);
    forall d | d in g1 ensures g1[d] == g2[d] {
      assert d in dates;
    }
  }

  /**
   From the store to the button: a grid cell of the window is enabled
   exactly when no PENDING or CONFIRMED record that survived the sweep holds
   its slot, and then exactly when a valid request for it with fresh keys is
   accepted by intake.
   */
  lemma CellEnabledIffFree(db: Db, start: Option<int>, today: int, days: SlotView.DaysParam, now: int,
                           sweepFails: bool, d: string, t: string)
    requires db.Configured?
    requires t in Times()
    ensures var r := SlotView.Slots(db, start, today, days, now, sweepFails);
      var g := GridStatus(r.view.dates, Serialise(r.view.slots));
      d in r.view.dates ==> (CellEnabled(CellAt(g, d, t)) <==> !HasOccupyingAt(r.db.records, d, t))
  {
    var r := SlotView.Slots(db, start, today, days, now, sweepFails);
    SlotView.SlotsMeaning(db, start, today, days, now, sweepFails, d, t);
    var raw := Serialise(r.view.slots);
    if d in r.view.dates {
      if t in r.view.slots[d] {
        var s := r.view.slots[d][t];
        assert Lookup(raw, d, t) == Some(StatusName(s));
        assert s == Pending || s == Confirmed;
      } else {
        assert Lookup(raw, d, t) == None;
      }
    }
  }

  /** With the slot shown free, a valid request for it with fresh keys is created. */
  lemma EnabledCellIsBookable(db: Db, start: Option<int>, today: int, days: SlotView.DaysParam, now: int,
                              sweepFails: bool, req: Validator.BookingRequest, id: string, token: string,
                              created: int, mailer: Intake.Mailer)
    requires db.Configured? && req.time in Times() && Validator.Valid(req)
    ensures var r := SlotView.Slots(db, start, today, days, now, sweepFails);
      var g := GridStatus(r.view.dates, Serialise(r.view.slots));
      req.date in r.view.dates && !IdInUse(r.db.records, id) && !TokenInUse(r.db.records, token) ==>
        (CellEnabled(CellAt(g, req.date, req.time))
         <==> Intake.CreateBooking(req, r.db, id, token, created, mailer).outcome.Created?)
  {
    CellEnabledIffFree(db, start, today, days, now, sweepFails, req.date, req.time);
  }

  /** What `submitBooking` does before any request leaves the page. */
  datatype SubmitOutcome = NotGmail | MissingField | Send(req: Validator.BookingRequest)

  const GMAIL_SUFFIX: string := "@gmail.com"

  predicate ClientGmailOk(email: string) {
    EndsWith(ToLowerAscii(Trim(email)), GMAIL_SUFFIX)
  }

  /**
   `submitBooking` for the selected slot: the Gmail check comes first, then
   the empty-field check, and the request carries the trimmed fields.
   */
  function SubmitBooking(date: string, time: string, name: string, phone: string, email: string)
    : (r: SubmitOutcome)
    ensures r.NotGmail? <==> !ClientGmailOk(email)
    ensures r.MissingField? <==> ClientGmailOk(email) && (Trim(name) == "" || Trim(phone) == "")
    ensures r.Send? ==>
      && r.req == Validator.BookingRequest(date, time, Trim(name), Trim(phone), Trim(email))
      && |r.req.name| > 0 && |r.req.phone| > 0 && |r.req.email| >= |GMAIL_SUFFIX|
  {
    if !ClientGmailOk(email) then NotGmail
    else if Trim(name) == "" || Trim(phone) == "" || Trim(email) == "" then MissingField
    else Send(Validator.BookingRequest(date, time, Trim(name), Trim(phone), Trim(email)))
  }

  /** An e-mail the server pattern accepts contains no white space, so trimming keeps it. */
  lemma ServerEmailIsTrimmed(email: string, k: nat)
    requires Validator.ShapeFrom(email, false, k)
    ensures Trim(email) == email
  {
    var dom := email[k + 1..];
    Validator.AllowedDomainChars(dom);
    forall i | 0 <= i < |email| ensures !IsJsSpace(email[i]) {
      if i > k {
        assert Validator.DomainChar(LowerAscii(dom[i - k - 1]));
      }
    }
    TrimNoSpace(email);
  }

  /** Lower-casing keeps the `@` at position `k` and lower-cases the domain after it on its own. */
  lemma LowerAroundAt(email: string, k: nat)
    requires Validator.ShapeFrom(email, false, k)
    ensures ToLowerAscii(email)[k] == '@'
    ensures ToLowerAscii(email)[k + 1..] == ToLowerAscii(email[k + 1..])
  {
  }

  /** A server-accepted address at gmail.com passes the page's check. */
  lemma GmailDomainPasses(email: string, k: nat)
    requires Validator.ShapeFrom(email, false, k)
    requires ToLowerAscii(email[k + 1..]) == Validator.GMAIL_DOMAIN
    ensures ClientGmailOk(email)
  {
    ServerEmailIsTrimmed(email, k);
    LowerAroundAt(email, k);
    var lower := ToLowerAscii(email);
    assert |lower| == k + 10;
    assert lower[k..] == [lower[k]] + lower[k + 1..];
  }

  /** A server-accepted address at googlemail.com fails the page's check. */
  lemma GooglemailDomainFails(email: string, k: nat)
    requires Validator.ShapeFrom(email, false, k)
    requires ToLowerAscii(email[k + 1..]) == Validator.GOOGLEMAIL_DOMAIN
    ensures !ClientGmailOk(email)
  {
    ServerEmailIsTrimmed(email, k);
    LowerAroundAt(email, k);
    var lower := ToLowerAscii(email);
    assert |lower| == k + 15;
    assert lower[k + 5] == Validator.GOOGLEMAIL_DOMAIN[4] == 'l';
    assert lower[|lower| - 10..][0] != GMAIL_SUFFIX[0];
  }

  /**
   Among the e-mails the server accepts, the page lets through exactly those
   whose domain is gmail.com in some letter case: a googlemail.com address
   the server would take never leaves the page.
   */
  lemma ClientStricterThanServer(email: string)
    requires Validator.GmailRegex(email)
    ensures exists k :: Validator.ShapeFrom(email, false, k)
    ensures forall k :: Validator.ShapeFrom(email, false, k) ==>
      (ClientGmailOk(email) <==> EqualIgnoringAsciiCase(email[k + 1..], Validator.GMAIL_DOMAIN))
  {
    Validator.GmailRegexMeaning(email);
    Validator.DomainsLowerCase();
    forall k | Validator.ShapeFrom(email, false, k)
      ensures ClientGmailOk(email) <==> EqualIgnoringAsciiCase(email[k + 1..], Validator.GMAIL_DOMAIN)
    {
      if ToLowerAscii(email[k + 1..]) == Validator.GMAIL_DOMAIN {
        GmailDomainPasses(email, k);
      } else {
        GooglemailDomainFails(email, k);
      }
    }
  }

  /** The page turns away a googlemail.com address the server accepts. */
  lemma GooglemailTurnedAway()
    ensures Validator.GmailRegex("a@googlemail.com")
    ensures SubmitBooking("d", "t", "n", "p", "a@googlemail.com").NotGmail?
  {
    Validator.GmailRegexAccepts();
    var e := "a@googlemail.com";
    assert e[2..] == Validator.GOOGLEMAIL_DOMAIN;
    Validator.DomainsLowerCase();
    assert Validator.ShapeFrom(e, false, 1);
    GooglemailDomainFails(e, 1);
  }

  lemma TrimGmailAddress(local: string)
    requires |local| == 0 || !IsJsSpace(local[0])
    ensures Trim(local + GMAIL_SUFFIX) == local + GMAIL_SUFFIX
  {
    var e := local + GMAIL_SUFFIX;
    assert e[|e| - 1] == GMAIL_SUFFIX[9] == 'm';
    assert e[0] == if |local| == 0 then '@' else local[0];
    TrimKeeps(e);
  }

  lemma LowerGmailAddress(local: string)
    ensures EndsWith(ToLowerAscii(local + GMAIL_SUFFIX), GMAIL_SUFFIX)
  {
    var e := local + GMAIL_SUFFIX;
    var lower := ToLowerAscii(e);
    forall i | |local| <= i < |e| ensures lower[i] == GMAIL_SUFFIX[i - |local|] {
      assert e[i] == GMAIL_SUFFIX[i - |local|];
      assert !('A' <= e[i] <= 'Z');
    }
    assert lower[|e| - 10..] == GMAIL_SUFFIX;
  }

  /**
   The page's check never looks at the local part: any address ending in
   "@gmail.com" with no white space in front passes it, white space inside
   the local part included (which the server then refuses).
   */
  lemma ClientIgnoresLocalPart(local: string)
    requires |local| == 0 || !IsJsSpace(local[0])
    ensures ClientGmailOk(local + GMAIL_SUFFIX)
  {
    TrimGmailAddress(local);
    LowerGmailAddress(local);
  }
}

=== FILE: intake.dfy ===
/**
 Booking intake (the create route): validate the request, check the store is
 configured, refuse a slot that already holds a PENDING or CONFIRMED record,
 otherwise insert one PENDING record with a fresh decision token. The admin
 notification that follows is best effort and never changes the outcome.
 */
module Intake {
  import opened Bookings
  import opened Validator

  /**
   The mailer as the route sees it: whether it is fully configured, and
   whether the send would succeed. A failed send is caught and logged.
   */
  datatype Mailer = Mailer(ready: bool, sendSucceeds: bool)

  datatype IntakeOutcome =
    | ValidationFailed(fields: set<Field>)
    | DbNotConfigured
    | SlotTaken
      /** The insert was refused by the store's key constraints (id or token already present). */
    | CreateFailed
    | Created(bookingId: string, mailerReady: bool)

  datatype IntakeResult = IntakeResult(outcome: IntakeOutcome, db: Db)

  /** The record the route inserts. */
  function NewBooking(req: BookingRequest, id: string, token: string, now: int): Booking {
    Booking(id, req.date, req.time, req.name, req.phone, req.email, Pending, token, now)
  }

  /**
   `newId` and `newToken` are the values the store and the random token
   generator produce; `now` is the creation timestamp.
   */
  function CreateBooking(req: BookingRequest, db: Db, newId: string, newToken: string, now: int, mailer: Mailer)
    : (r: IntakeResult)
    ensures !Valid(req) ==> r == IntakeResult(ValidationFailed(FailingFields(req)), db) && FailingFields(req) != {}
    ensures Valid(req) && db.Unconfigured? ==> r == IntakeResult(DbNotConfigured, db)
    ensures Valid(req) && db.Configured? && HasOccupyingAt(db.records, req.date, req.time)
      ==> r == IntakeResult(SlotTaken, db)
    ensures r.outcome.Created? <==>
      && Valid(req) && db.Configured?
      && !HasOccupyingAt(db.records, req.date, req.time)
      && !IdInUse(db.records, newId) && !TokenInUse(db.records, newToken)
    ensures r.outcome.Created? ==>
      && r.outcome.bookingId == newId && r.outcome.mailerReady == mailer.ready
      && r.db.Configured? && |r.db.records| == |db.records| + 1
      && r.db.records[..|db.records|] == db.records
      && var b := r.db.records[|db.records|];
         AtSlot(b, req.date, req.time) && b.status == Pending && b.id == newId
         && b.decisionToken == newToken && b.createdAt == now
         && b.name == req.name && b.phone == req.phone && b.email == req.email
    ensures !r.outcome.Created? ==> r.db == db
  {
    if !Valid(req) then
      IntakeResult(ValidationFailed(FailingFields(req)), db)
    else if db.Unconfigured? then
      IntakeResult(DbNotConfigured, db)
    else if HasOccupyingAt(db.records, req.date, req.time) then
      IntakeResult(SlotTaken, db)
    else if IdInUse(db.records, newId) || TokenInUse(db.records, newToken) then
      IntakeResult(CreateFailed, db)
    else
      var b := NewBooking(req, newId, newToken, now);
      var rs' := db.records + [b];
      assert rs'[..|db.records|] == db.records;
      IntakeResult(Created(newId, mailer.ready), Configured(rs'))
  }

  /** Sequential intake keeps at most one PENDING-or-CONFIRMED record per slot. */
  lemma CreatePreservesAtMostOneOccupying(
    req: BookingRequest, db: Db, newId: string, newToken: string, now: int, mailer: Mailer)
    requires db.Configured? && AtMostOneOccupying(db.records)
    ensures var r := CreateBooking(req, db, newId, newToken, now, mailer);
      r.db.Configured? && AtMostOneOccupying(r.db.records)
  {
    var r := CreateBooking(req, db, newId, newToken, now, mailer);
    if r.outcome.Created? {
      var rs, rs' := db.records, r.db.records;
      var n := |rs|;
      forall i, j | 0 <= i < j < |rs'| && Occupies(rs'[i]) && Occupies(rs'[j])
        ensures !SameSlot(rs'[i], rs'[j])
      {
        assert rs'[i] == rs[i];
        if j == n {
          assert Occupies(rs[i]) && rs'[j].date == req.date && rs'[j].time == req.time;
        } else {
          assert rs'[j] == rs[j];
        }
      }
    }
  }

  /** Intake never adds a CONFIRMED record, so it cannot break the one-CONFIRMED-per-slot invariant. */
  lemma CreatePreservesAtMostOneConfirmed(
    req: BookingRequest, db: Db, newId: string, newToken: string, now: int, mailer: Mailer)
    requires db.Configured? && AtMostOneConfirmed(db.records)
    ensures var r := CreateBooking(req, db, newId, newToken, now, mailer);
      r.db.Configured? && AtMostOneConfirmed(r.db.records)
  {
    var r := CreateBooking(req, db, newId, newToken, now, mailer);
    if r.outcome.Created? {
      var rs, rs' := db.records, r.db.records;
      forall i, j | 0 <= i < j < |rs'| && rs'[i].status == Confirmed && rs'[j].status == Confirmed
        ensures !SameSlot(rs'[i], rs'[j])
      {
        assert rs'[i] == rs[i];
        assert j < |rs| && rs'[j] == rs[j];
      }
    }
  }

  /** Intake keeps ids and decision tokens unique. */
  lemma CreatePreservesUniqueKeys(
    req: BookingRequest, db: Db, newId: string, newToken: string, now: int, mailer: Mailer)
    requires db.Configured? && UniqueKeys(db.records)
    ensures var r := CreateBooking(req, db, newId, newToken, now, mailer);
      r.db.Configured? && UniqueKeys(r.db.records)
  {
    var r := CreateBooking(req, db, newId, newToken, now, mailer);
    if r.outcome.Created? {
      var rs, rs' := db.records, r.db.records;
      forall i, j | 0 <= i < j < |rs'|
        ensures rs'[i].id != rs'[j].id && rs'[i].decisionToken != rs'[j].decisionToken
      {
        assert rs'[i] == rs[i];
        if j == |rs| {
          assert rs'[j].id == newId && rs'[j].decisionToken == newToken;
          assert !(rs[i].id == newId) && !(rs[i].decisionToken == newToken);
        } else {
          assert rs'[j] == rs[j];
        }
      }
    }
  }

  /**
   The mailer's configuration and the fate of the send change neither the
   stored records nor the outcome, apart from the reported `mailerReady` flag.
   */
  lemma CreateIgnoresMailer(
    req: BookingRequest, db: Db, newId: string, newToken: string, now: int, m1: Mailer, m2: Mailer)
    ensures var r1 := CreateBooking(req, db, newId, newToken, now, m1);
      var r2 := CreateBooking(req, db, newId, newToken, now, m2);
      && r1.db == r2.db
      && r1.outcome.Created? == r2.outcome.Created?
      && (r1.outcome.Created? ==> r1.outcome.bookingId == r2.outcome.bookingId)
      && (!r1.outcome.Created? ==> r1.outcome == r2.outcome)
  {
  }

  /**
   A slot whose records are all REJECTED admits a new booking; a second
   request for the same slot right after it is refused as taken.
   */
  lemma RejectedSlotAdmitsOnce(
    req: BookingRequest, req2: BookingRequest, rs: seq<Booking>,
    id1: string, tok1: string, id2: string, tok2: string, now: int, mailer: Mailer)
    requires Valid(req) && Valid(req2) && req2.date == req.date && req2.time == req.time
    requires forall i :: 0 <= i < |rs| && AtSlot(rs[i], req.date, req.time) ==> rs[i].status == Rejected
    requires !IdInUse(rs, id1) && !TokenInUse(rs, tok1)
    ensures var r := CreateBooking(req, Configured(rs), id1, tok1, now, mailer);
      && r.outcome.Created?
      && CreateBooking(req2, r.db, id2, tok2, now, mailer) == IntakeResult(SlotTaken, r.db)
  {
    var r := CreateBooking(req, Configured(rs), id1, tok1, now, mailer);
    assert !HasOccupyingAt(rs, req.date, req.time);
    assert AtSlot(r.db.records[|rs|], req.date, req.time) && Occupies(r.db.records[|rs|]);
  }
}

=== FILE: retention.dfy ===
/**
 The retention sweep: delete every booking created more than 30 days before
 `now`, whatever its status. The cron route runs it behind its own secret and
 reports how many records went; the slot view runs it inline.
 */
module Retention {
  import opened Bookings

  /** 30 days of milliseconds: 30 * 24 * 60 * 60 * 1000. */
  const RETENTION_MS: int := 2_592_000_000

  function Cutoff(now: int): int {
    now - RETENTION_MS
  }

  /** The store's `deleteMany where createdAt < cutoff`: keeps the other records in their order. */
  function Sweep(rs: seq<Booking>, cutoff: int): (kept: seq<Booking>)
    ensures |kept| <= |rs|
    ensures forall b :: b in kept <==> b in rs && b.createdAt >= cutoff
  {
    if |rs| == 0 then []
    else
      var rest := Sweep(rs[1..], cutoff);
      assert rs == [rs[0]] + rs[1..];
      if rs[0].createdAt >= cutoff then [rs[0]] + rest else rest
  }

  /**
   Records at or after the cutoff are kept with their multiplicity, older
   ones are all removed.
   */
  lemma {:induction false} SweepCounts(rs: seq<Booking>, cutoff: int)
    ensures forall b :: multiset(Sweep(rs, cutoff))[b] == if b.createdAt >= cutoff then multiset(rs)[b] else 0
  {
    if |rs| > 0 {
      SweepCounts(rs[1..], cutoff);
      assert rs == [rs[0]] + rs[1..];
    }
  }

  /** The number of records older than the cutoff. */
  function CountExpired(rs: seq<Booking>, cutoff: int): nat {
    if |rs| == 0 then 0
    else (if rs[0].createdAt < cutoff then 1 else 0) + CountExpired(rs[1..], cutoff)
  }

  /** The sweep removes exactly the expired records, so the deleted count is their number. */
  lemma {:induction false} SweepRemovesExpired(rs: seq<Booking>, cutoff: int)
    ensures |rs| - |Sweep(rs, cutoff)| == CountExpired(rs, cutoff)
  {
    if |rs| > 0 {
      SweepRemovesExpired(rs[1..], cutoff);
    }
  }

  /** Sweeping twice with the same cutoff removes nothing more. */
  lemma {:induction false} SweepIdempotent(rs: seq<Booking>, cutoff: int)
    ensures Sweep(Sweep(rs, cutoff), cutoff) == Sweep(rs, cutoff)
  {
    if |rs| > 0 {
      SweepIdempotent(rs[1..], cutoff);
      var rest := Sweep(rs[1..], cutoff);
      if rs[0].createdAt >= cutoff {
        assert ([rs[0]] + rest)[1..] == rest;
      }
    }
  }

  /** A relation between an earlier and a later record holds for every such pair. */
  ghost predicate AllApart(rule: (Booking, Booking) -> bool, rs: seq<Booking>) {
    forall i, j :: 0 <= i < j < |rs| ==> rule(rs[i], rs[j])
  }

  /** The first record stands in the relation to every later one. */
  lemma HeadApartFromTail(rule: (Booking, Booking) -> bool, rs: seq<Booking>)
    requires |rs| > 0 && AllApart(rule, rs)
    ensures forall b :: b in rs[1..] ==> rule(rs[0], b)
  {
    forall b | b in rs[1..] ensures rule(rs[0], b) {
      var k :| 0 <= k < |rs| - 1 && rs[1..][k] == b;
      assert rs[k + 1] == b;
    }
  }

  /** Putting in front a record related to every later one keeps the relation. */
  lemma ConsApart(rule: (Booking, Booking) -> bool, x: Booking, rest: seq<Booking>)
    requires AllApart(rule, rest)
    requires forall b :: b in rest ==> rule(x, b)
    ensures AllApart(rule, [x] + rest)
  {
    var kept := [x] + rest;
    forall i, j | 0 <= i < j < |kept| ensures rule(kept[i], kept[j]) {
      assert kept[j] == rest[j - 1];
      if i > 0 {
        assert kept[i] == rest[i - 1];
      }
    }
  }

  /** A relation holding between every earlier and later record still holds after the sweep. */
  lemma {:induction false} SweepKeepsApart(rs: seq<Booking>, cutoff: int, rule: (Booking, Booking) -> bool)
    requires AllApart(rule, rs)
    ensures AllApart(rule, Sweep(rs, cutoff))
  {
    if |rs| > 0 {
      var tail := rs[1..];
      SweepKeepsApart(tail, cutoff, rule);
      if rs[0].createdAt >= cutoff {
        HeadApartFromTail(rule, rs);
        ConsApart(rule, rs[0], Sweep(tail, cutoff));
      }
    }
  }

  /** The sweep keeps at most one PENDING-or-CONFIRMED record per slot. */
  lemma SweepPreservesAtMostOneOccupying(rs: seq<Booking>, cutoff: int)
    requires AtMostOneOccupying(rs)
    ensures AtMostOneOccupying(Sweep(rs, cutoff))
  {
    var rule := (a: Booking, b: Booking) => Occupies(a) && Occupies(b) ==> !SameSlot(a, b);
    assert AllApart(rule, rs);
    SweepKeepsApart(rs, cutoff, rule);
  }

  /** The sweep keeps at most one CONFIRMED record per slot. */
  lemma SweepPreservesAtMostOneConfirmed(rs: seq<Booking>, cutoff: int)
    requires AtMostOneConfirmed(rs)
    ensures AtMostOneConfirmed(Sweep(rs, cutoff))
  {
    var rule := (a: Booking, b: Booking) => a.status == Confirmed && b.status == Confirmed ==> !SameSlot(a, b);
    assert AllApart(rule, rs);
    SweepKeepsApart(rs, cutoff, rule);
  }

  /** The sweep keeps ids and tokens unique. */
  lemma SweepPreservesUniqueKeys(rs: seq<Booking>, cutoff: int)
    requires UniqueKeys(rs)
    ensures UniqueKeys(Sweep(rs, cutoff))
  {
    var rule := (a: Booking, b: Booking) => a.id != b.id && a.decisionToken != b.decisionToken;
    assert AllApart(rule, rs);
    SweepKeepsApart(rs, cutoff, rule);
  }

  datatype CleanupOutcome =
    | SecretNotSet
    | Unauthorized
    | DbNotConfigured
    | Cleaned(deleted: nat, cutoff: int)

  datatype CleanupResult = CleanupResult(outcome: CleanupOutcome, db: Db)

  /**
   The cron route. `cronSecret` is the configured secret ("" when unset),
   `key` the request's query parameter, `now` the clock in milliseconds.
   */
  function Cleanup(cronSecret: string, key: Option<string>, db: Db, now: int): (r: CleanupResult)
    ensures cronSecret == "" ==> r == CleanupResult(SecretNotSet, db)
    ensures cronSecret != "" && key != Some(cronSecret) ==> r == CleanupResult(Unauthorized, db)
    ensures cronSecret != "" && key == Some(cronSecret) && db.Unconfigured? ==> r == CleanupResult(DbNotConfigured, db)
    ensures r.outcome.Cleaned? <==> cronSecret != "" && key == Some(cronSecret) && db.Configured?
    ensures r.outcome.Cleaned? ==>
      && r.outcome.cutoff == now - 2_592_000_000
      && r.db.Configured?
      && (forall b :: b in r.db.records <==> b in db.records && b.createdAt >= now - 2_592_000_000)
      && r.outcome.deleted == |db.records| - |r.db.records| == CountExpired(db.records, r.outcome.cutoff)
    ensures !r.outcome.Cleaned? ==> r.db == db
  {
    if cronSecret == "" then CleanupResult(SecretNotSet, db)
    else if key != Some(cronSecret) then CleanupResult(Unauthorized, db)
    else if db.Unconfigured? then CleanupResult(DbNotConfigured, db)
    else
      var cutoff := Cutoff(now);
      var kept := Sweep(db.records, cutoff);
      SweepRemovesExpired(db.records, cutoff);
      CleanupResult(Cleaned(|db.records| - |kept|, cutoff), Configured(kept))
  }

  /** A record 31 days old is deleted, one 29 days old is kept. */
  lemma RetentionHorizonExample(b1: Booking, b2: Booking, now: int)
    requires b1.createdAt == now - 31 * 86_400_000 && b2.createdAt == now - 29 * 86_400_000
    ensures Sweep([b1, b2], Cutoff(now)) == [b2]
  {
    assert [b1, b2][1..] == [b2];
  }
}

=== FILE: slot_view.dfy ===
/**
 The slot occupancy view (the slots route): a window of at most 14
 consecutive dates, and for each date a map from time to the status of the
 PENDING or CONFIRMED booking holding that slot. Reading the view first runs
 the retention sweep and ignores its failure.
 */
module SlotView {
  import opened Bookings
  import Calendar
  import Retention

  const DEFAULT_DAYS: int := 7
  const MAX_DAYS: int := 14

  /** The `days` query parameter: absent or empty, a number, or a string that is not a number. */
  datatype DaysParam = Missing | Given(n: int) | NotANumber

  /**
   How many dates the window loop produces: `Math.min(Number(days || 7), 14)`
   iterations, none when the bound is zero, negative or NaN.
   */
  function DayCount(p: DaysParam): (n: nat)
    ensures n <= MAX_DAYS
    ensures p.Missing? ==> n == DEFAULT_DAYS
    ensures p.Given? && 0 <= p.n <= MAX_DAYS ==> n == p.n
    ensures p.Given? && p.n >= MAX_DAYS ==> n == MAX_DAYS
    ensures n == 0 <==> p.NotANumber? || (p.Given? && p.n <= 0)
  {
    match p
    case Missing => DEFAULT_DAYS
    case Given(k) => if k <= 0 then 0 else if k < MAX_DAYS then k else MAX_DAYS
    case NotANumber => 0
  }

  /** `count` consecutive dates from day number `first`, as ISO strings. */
  function Window(first: int, count: nat): (dates: seq<string>)
    ensures |dates| == count
    ensures forall i :: 0 <= i < count ==> dates[i] == Calendar.IsoDate(first + i)
  {
    seq(count, i => Calendar.IsoDate(first + i))
  }

  type SlotMap = map<string, map<string, Status>>

  /** The status of the LAST record in store order that occupies (date, time), if any. */
  function LastOccupyingAt(rs: seq<Booking>, date: string, time: string): (r: Option<Status>)
    ensures r.Some? <==> HasOccupyingAt(rs, date, time)
    ensures r.Some? ==> r.value == Pending || r.value == Confirmed
    ensures r.Some? ==> exists k :: 0 <= k < |rs| && AtSlot(rs[k], date, time) && Occupies(rs[k])
                                    && rs[k].status == r.value
  {
    if |rs| == 0 then None
    else
      var b := rs[|rs| - 1];
      var prefix := rs[..|rs| - 1];
      if AtSlot(b, date, time) && Occupies(b) then
        assert rs[|rs| - 1] == b;
        Some(b.status)
      else
        var r := LastOccupyingAt(prefix, date, time);
        assert r.Some? ==> exists k :: 0 <= k < |rs| && AtSlot(rs[k], date, time) && Occupies(rs[k])
                                       && rs[k].status == r.value by {
          if r.Some? {
            var k :| 0 <= k < |prefix| && AtSlot(prefix[k], date, time) && Occupies(prefix[k])
                     && prefix[k].status == r.value;
            assert rs[k] == prefix[k];
          }
        }
        assert HasOccupyingAt(prefix, date, time) ==> HasOccupyingAt(rs, date, time);
        assert HasOccupyingAt(rs, date, time) ==> HasOccupyingAt(prefix, date, time) by {
          if HasOccupyingAt(rs, date, time) {
            var k :| 0 <= k < |rs| && AtSlot(rs[k], date, time) && Occupies(rs[k]);
            assert k < |rs| - 1 && prefix[k] == rs[k];
          }
        }
        r
  }

  /**
   The occupancy map: every window date gets an entry, and the occupying
   records with a window date are written in store order, a later record
   overwriting an earlier one at the same slot.
   */
  function BuildSlots(dates: seq<string>, rs: seq<Booking>): (m: SlotMap)
    ensures m.Keys == set d | d in dates
    ensures forall d, t :: d in m ==> (t in m[d] <==> LastOccupyingAt(rs, d, t).Some?)
    ensures forall d, t :: d in m && t in m[d] ==> LastOccupyingAt(rs, d, t) == Some(m[d][t])
  {
    if |rs| == 0 then map d | d in dates :: map[]
    else
      var m := BuildSlots(dates, rs[..|rs| - 1]);
      var b := rs[|rs| - 1];
      if b.date in m && Occupies(b) then m[b.date := m[b.date][b.time := b.status]] else m
  }

  datatype View = View(dates: seq<string>, slots: SlotMap)

  datatype SlotsResult = SlotsResult(view: View, db: Db)

  /**
   The slots route. `start` is the requested first day (absent: `today`),
   `now` the clock in milliseconds, and `sweepFails` whether the inline
   retention sweep throws (the failure is logged and ignored).
   */
  function Slots(db: Db, start: Option<int>, today: int, days: DaysParam, now: int, sweepFails: bool)
    : (r: SlotsResult)
    ensures db.Unconfigured? ==> r == SlotsResult(View([], map[]), db)
    ensures db.Configured? ==> r.db.Configured?
    ensures db.Configured? ==>
      r.db.records == if sweepFails then db.records else Retention.Sweep(db.records, Retention.Cutoff(now))
    ensures db.Configured? ==> r.view.dates == Window(if start.Some? then start.value else today, DayCount(days))
    ensures db.Configured? ==> r.view.slots == BuildSlots(r.view.dates, r.db.records)
  {
    if db.Unconfigured? then SlotsResult(View([], map[]), db)
    else
      var first := if start.Some? then start.value else today;
      var dates := Window(first, DayCount(days));
      var rs := if sweepFails then db.records else Retention.Sweep(db.records, Retention.Cutoff(now));
      SlotsResult(View(dates, BuildSlots(dates, rs)), Configured(rs))
  }

  /**
   What the view says: the window holds the requested number of consecutive
   dates, every window date has an entry, and a time appears under a date
   exactly when a PENDING or CONFIRMED record that survived the sweep holds
   that slot.
   */
  lemma SlotsMeaning(db: Db, start: Option<int>, today: int, days: DaysParam, now: int, sweepFails: bool,
                     d: string, t: string)
    requires db.Configured?
    ensures var r := Slots(db, start, today, days, now, sweepFails);
      && (d in r.view.slots <==> d in r.view.dates)
      && (d in r.view.slots ==> (t in r.view.slots[d] <==> HasOccupyingAt(r.db.records, d, t)))
      && (d in r.view.slots && t in r.view.slots[d] ==> r.view.slots[d][t] != Rejected)
      && (d in r.view.slots && t in r.view.slots[d] ==>
            exists k :: 0 <= k < |r.db.records| && AtSlot(r.db.records[k], d, t) && Occupies(r.db.records[k])
                        && r.db.records[k].status == r.view.slots[d][t])
  {
    var r := Slots(db, start, today, days, now, sweepFails);
    var first := if start.Some? then start.value else today;
    assert r.view.dates == Window(first, DayCount(days));
    var m := BuildSlots(r.view.dates, r.db.records);
    assert r.view.slots == m;
    assert d in m <==> d in r.view.dates;
    if d in m {
      assert t in m[d] <==> LastOccupyingAt(r.db.records, d, t).Some?;
      if t in m[d] {
        assert LastOccupyingAt(r.db.records, d, t) == Some(m[d][t]);
      }
    }
  }

  /**
   When each slot holds at most one occupying record, the view shows for a
   slot exactly the status of the record occupying it; REJECTED records
   never show.
   */
  lemma SlotShowsTheOccupyingRecord(rs: seq<Booking>, dates: seq<string>, k: nat)
    requires AtMostOneOccupying(rs) && k < |rs| && rs[k].date in dates
    ensures var m := BuildSlots(dates, rs);
      (Occupies(rs[k]) ==> rs[k].time in m[rs[k].date] && m[rs[k].date][rs[k].time] == rs[k].status)
  {
    if Occupies(rs[k]) {
      UniqueOccupyingIsLast(rs, k);
    }
  }

  lemma {:induction false} UniqueOccupyingIsLast(rs: seq<Booking>, k: nat)
    requires AtMostOneOccupying(rs) && k < |rs| && Occupies(rs[k])
    ensures LastOccupyingAt(rs, rs[k].date, rs[k].time) == Some(rs[k].status)
  {
    var n := |rs| - 1;
    if k < n {
      var prefix := rs[..n];
      assert !(Occupies(rs[n]) && SameSlot(rs[k], rs[n]));
      assert AtMostOneOccupying(prefix);
      assert prefix[k] == rs[k];
      UniqueOccupyingIsLast(prefix, k);
    }
  }

  /**
   A slot held only by PENDING records (as a check-then-create race can leave
   it) shows PENDING, whichever of them is written last.
   */
  lemma AllPendingSlotShowsPending(rs: seq<Booking>, dates: seq<string>, date: string, time: string)
    requires date in dates && HasOccupyingAt(rs, date, time)
    requires forall i :: 0 <= i < |rs| && AtSlot(rs[i], date, time) ==> rs[i].status != Confirmed
    ensures var m := BuildSlots(dates, rs);
      time in m[date] && m[date][time] == Pending
  {
    var r := LastOccupyingAt(rs, date, time);
    var k :| 0 <= k < |rs| && AtSlot(rs[k], date, time) && Occupies(rs[k]) && rs[k].status == r.value;
  }

  /**
   With the sweep working, a slot whose only occupying records were created
   before the 30-day cutoff shows as free.
   */
  lemma ExpiredRecordsDoNotShow(db: Db, start: Option<int>, today: int, days: DaysParam, now: int,
                                date: string, time: string)
    requires db.Configured?
    requires forall i :: 0 <= i < |db.records| && AtSlot(db.records[i], date, time) && Occupies(db.records[i])
               ==> db.records[i].createdAt < Retention.Cutoff(now)
    ensures var r := Slots(db, start, today, days, now, false);
      date in r.view.slots ==> time !in r.view.slots[date]
  {
    var r := Slots(db, start, today, days, now, false);
    var rs := r.db.records;
    forall k | 0 <= k < |rs| && AtSlot(rs[k], date, time)
      ensures !Occupies(rs[k])
    {
      assert rs[k] in db.records && rs[k].createdAt >= Retention.Cutoff(now);
    }
  }
}

=== FILE: text.dfy ===
/**
 The small part of JavaScript's string handling the booking code relies on:
 decimal rendering (`String(n)`), decimal parsing (`Number(s)` on digit
 strings), `padStart(2, "0")`, `split`, `trim`, ASCII lower-casing and
 `endsWith`. Strings are sequences of characters.
 */
module Text {

  predicate IsDigit(c: char) { '0' <= c <= '9' }

  predicate AllDigits(s: string) {
    forall i :: 0 <= i < |s| ==> IsDigit(s[i])
  }

  function DigitChar(d: nat): (c: char)
    requires d < 10
    ensures IsDigit(c)
  {
    (('0' as int) + d) as char
  }

  function DigitValue(c: char): (d: nat)
    requires IsDigit(c)
    ensures d < 10 && DigitChar(d) == c
  {
    c as int - '0' as int
  }

  /** `String(n)` for a non-negative integer: decimal digits, no leading zero. */
  function ShowNat(n: nat): (s: string)
    ensures 1 <= |s| && AllDigits(s)
    ensures |s| > 1 ==> s[0] != '0'
    ensures n < 10 <==> |s| == 1
  {
    if n < 10 then [DigitChar(n)] else ShowNat(n / 10) + [DigitChar(n % 10)]
  }

  /** `String(n)` for any integer: a minus sign before the digits of a negative number. */
  function ShowInt(n: int): string {
    if n < 0 then "-" + ShowNat(-n) else ShowNat(n)
  }

  /** `Number(s)` on a string of decimal digits; the empty string is 0, as in JavaScript. */
  function DigitsValue(s: string): nat
    requires AllDigits(s)
  {
    if |s| == 0 then 0 else DigitsValue(s[..|s| - 1]) * 10 + DigitValue(s[|s| - 1])
  }

  /** A digit string contains no other character. */
  lemma DigitsExclude(s: string, c: char)
    requires AllDigits(s) && !IsDigit(c)
    ensures c !in s
  {
    forall k | 0 <= k < |s| ensures s[k] != c {
      assert IsDigit(s[k]);
    }
  }

  /** Parsing the decimal rendering of a number gives the number back. */
  lemma {:induction false} DigitsValueOfShowNat(n: nat)
    ensures DigitsValue(ShowNat(n)) == n
  {
    var s := ShowNat(n);
    if n >= 10 {
      DigitsValueOfShowNat(n / 10);
      assert s[..|s| - 1] == ShowNat(n / 10);
    }
  }

  /** Leading zeros do not change the value of a digit string. */
  lemma {:induction false} DigitsValueLeadingZero(s: string)
    requires AllDigits(s)
    ensures AllDigits("0" + s) && DigitsValue("0" + s) == DigitsValue(s)
  {
    if |s| > 0 {
      var z := "0" + s;
      assert z[..|z| - 1] == "0" + s[..|s| - 1];
      DigitsValueLeadingZero(s[..|s| - 1]);
    }
  }

  /** Two numbers with the same rendering are equal. */
  lemma ShowNatInjective(a: nat, b: nat)
    requires ShowNat(a) == ShowNat(b)
    ensures a == b
  {
    DigitsValueOfShowNat(a);
    DigitsValueOfShowNat(b);
  }

  /** `s.padStart(2, "0")`. */
  function PadStart2(s: string): (r: string)
    ensures |s| >= 2 ==> r == s
    ensures |s| < 2 ==> |r| == 2 && r[2 - |s|..] == s && forall i :: 0 <= i < 2 - |s| ==> r[i] == '0'
  {
    if |s| == 0 then "00" else if |s| == 1 then "0" + s else s
  }

  /** Padding a digit string with zeros keeps its value. */
  lemma PadStart2Value(s: string)
    requires AllDigits(s)
    ensures AllDigits(PadStart2(s)) && DigitsValue(PadStart2(s)) == DigitsValue(s)
  {
    if |s| == 0 {
      assert PadStart2(s) == "0" + "0";
      DigitsValueLeadingZero("0");
    } else if |s| == 1 {
      DigitsValueLeadingZero(s);
    }
  }

  /** `parts.join([sep])`; the empty list joins to "". */
  function Join(parts: seq<string>, sep: char): string
  {
    if |parts| == 0 then ""
    else if |parts| == 1 then parts[0]
    else parts[0] + [sep] + Join(parts[1..], sep)
  }

  lemma JoinThree(a: string, b: string, c: string, sep: char)
    ensures Join([a, b, c], sep) == a + [sep] + b + [sep] + c
  {
    assert [a, b, c][1..] == [b, c] && [b, c][1..] == [c];
    assert Join([b, c], sep) == b + [sep] + c;
    assert Join([a, b, c], sep) == a + [sep] + (b + [sep] + c);
  }

  /** `s.split(sep)` for a one-character separator: the maximal runs between separators. */
  function Split(s: string, sep: char): (parts: seq<string>)
    ensures |parts| >= 1
  {
    if |s| == 0 then [""]
    else
      var rest := Split(s[1..], sep);
      if s[0] == sep then [""] + rest
      else [[s[0]] + rest[0]] + rest[1..]
  }

  /** No part contains the separator. */
  lemma {:induction false} SplitPartsAvoidSeparator(s: string, sep: char)
    ensures forall i :: 0 <= i < |Split(s, sep)| ==> sep !in Split(s, sep)[i]
  {
    if |s| > 0 {
      SplitPartsAvoidSeparator(s[1..], sep);
      var rest := Split(s[1..], sep);
      if s[0] != sep {
        assert sep !in [s[0]] + rest[0];
      }
    }
  }

  /** Splitting and joining again gives back the original string. */
  lemma {:induction false} JoinSplit(s: string, sep: char)
    ensures Join(Split(s, sep), sep) == s
  {
    if |s| > 0 {
      JoinSplit(s[1..], sep);
      var rest := Split(s[1..], sep);
      if s[0] != sep {
        if |rest| == 1 {
          assert Split(s, sep) == [[s[0]] + rest[0]];
        } else {
          assert Split(s, sep)[1..] == rest[1..];
        }
      } else {
        assert Split(s, sep)[1..] == rest;
      }
    }
  }

  /** A string free of the separator is one part. */
  lemma {:induction false} SplitNoSeparator(a: string, sep: char)
    requires sep !in a
    ensures Split(a, sep) == [a]
  {
    if |a| > 0 {
      SplitNoSeparator(a[1..], sep);
      assert [a[0]] + a[1..] == a;
    }
  }

  /** A separator-free prefix followed by the separator becomes the first part. */
  lemma {:induction false} SplitAfterPrefix(a: string, sep: char, b: string)
    requires sep !in a
    ensures Split(a + [sep] + b, sep) == [a] + Split(b, sep)
  {
    if |a| == 0 {
      assert a + [sep] + b == [sep] + b;
      assert ([sep] + b)[1..] == b;
    } else {
      var s := a + [sep] + b;
      assert s[1..] == a[1..] + [sep] + b;
      SplitAfterPrefix(a[1..], sep, b);
      assert [a[0]] + a[1..] == a;
    }
  }

  /** Joining separator-free parts and splitting again gives back the parts. */
  lemma {:induction false} SplitJoin(parts: seq<string>, sep: char)
    requires |parts| >= 1
    requires forall i :: 0 <= i < |parts| ==> sep !in parts[i]
    ensures Split(Join(parts, sep), sep) == parts
  {
    if |parts| == 1 {
      SplitNoSeparator(parts[0], sep);
    } else {
      SplitJoin(parts[1..], sep);
      SplitAfterPrefix(parts[0], sep, Join(parts[1..], sep));
      assert [parts[0]] + parts[1..] == parts;
    }
  }

  /**
   The characters JavaScript's `\s` and `String.prototype.trim` treat as
   white space: the WhiteSpace and LineTerminator code points.
   */
  predicate IsJsSpace(c: char) {
    || c == '\t' || c == '\n' || c == '\U{000B}' || c == '\U{000C}' || c == '\r' || c == ' '
    || c == '\U{00A0}' || c == '\U{1680}' || ('\U{2000}' <= c <= '\U{200A}')
    || c == '\U{2028}' || c == '\U{2029}' || c == '\U{202F}' || c == '\U{205F}'
    || c == '\U{3000}' || c == '\U{FEFF}'
  }

  function TrimStart(s: string): (r: string)
    ensures |r| <= |s| && r == s[|s| - |r|..]
    ensures forall i :: 0 <= i < |s| - |r| ==> IsJsSpace(s[i])
    ensures |r| > 0 ==> !IsJsSpace(r[0])
  {
    if |s| > 0 && IsJsSpace(s[0]) then
      var r := TrimStart(s[1..]);
      assert s[1..][|s| - 1 - |r|..] == s[|s| - |r|..];
      r
    else s
  }

  function TrimEnd(s: string): (r: string)
    ensures |r| <= |s| && r == s[..|r|]
    ensures forall i :: |r| <= i < |s| ==> IsJsSpace(s[i])
    ensures |r| > 0 ==> !IsJsSpace(r[|r| - 1])
  {
    if |s| > 0 && IsJsSpace(s[|s| - 1]) then
      var r := TrimEnd(s[..|s| - 1]);
      assert s[..|s| - 1][..|r|] == s[..|r|];
      r
    else s
  }

  /** `r` is `s` with `k` white-space characters removed in front and only white space removed behind. */
  ghost predicate TrimmedAt(s: string, r: string, k: int) {
    && 0 <= k <= |s| - |r| && r == s[k..k + |r|]
    && (forall i :: 0 <= i < k ==> IsJsSpace(s[i]))
    && (forall i :: k + |r| <= i < |s| ==> IsJsSpace(s[i]))
  }

  /** `s.trim()`. */
  function Trim(s: string): (r: string)
    ensures |r| <= |s|
    ensures |r| > 0 ==> !IsJsSpace(r[0]) && !IsJsSpace(r[|r| - 1])
  {
    TrimEnd(TrimStart(s))
  }

  /** Trimming drops the white space at both ends and nothing else. */
  lemma TrimMeaning(s: string)
    ensures exists k :: TrimmedAt(s, Trim(s), k)
  {
    var t := TrimStart(s);
    assert TrimmedAt(s, Trim(s), |s| - |t|);
  }

  /** A string with no white space is its own trim. */
  lemma TrimNoSpace(s: string)
    requires forall i :: 0 <= i < |s| ==> !IsJsSpace(s[i])
    ensures Trim(s) == s
  {
  }

  /** A string with no white space at either end is its own trim. */
  lemma TrimKeeps(s: string)
    requires |s| > 0 && !IsJsSpace(s[0]) && !IsJsSpace(s[|s| - 1])
    ensures Trim(s) == s
  {
    assert TrimStart(s) == s;
  }

  function LowerAscii(c: char): (l: char)
    ensures 'A' <= c <= 'Z' ==> l as int == c as int + 32
    ensures !('A' <= c <= 'Z') ==> l == c
  {
    if 'A' <= c <= 'Z' then (c as int + 32) as char else c
  }

  /** `s.toLowerCase()` restricted to ASCII letters. */
  function ToLowerAscii(s: string): (r: string)
    ensures |r| == |s| && forall i :: 0 <= i < |s| ==> r[i] == LowerAscii(s[i])
  {
    seq(|s|, i requires 0 <= i < |s| => LowerAscii(s[i]))
  }

  /** A string without upper-case ASCII letters is already lower case. */
  lemma ToLowerAsciiKeeps(s: string)
    requires forall i :: 0 <= i < |s| ==> !('A' <= s[i] <= 'Z')
    ensures ToLowerAscii(s) == s
  {
  }

  /** Two strings equal up to the case of ASCII letters. */
  predicate EqualIgnoringAsciiCase(a: string, b: string) {
    ToLowerAscii(a) == ToLowerAscii(b)
  }

  /** `s.endsWith(suffix)`. */
  predicate EndsWith(s: string, suffix: string) {
    |suffix| <= |s| && s[|s| - |suffix|..] == suffix
  }
}

=== FILE: token_decision.dfy ===
/**
 The decision-link page: the decision token alone locates and authorizes the
 booking. It follows the admin route's algorithm with its own messages. Its
 result e-mails are sent without a catch, so a failing send turns the page
 into an error after the update has already been stored.
 */
module TokenDecision {
  import opened Bookings
  import AdminDecision

  datatype PageOutcome =
    | InvalidLink
    | DbNotConfigured
    | BookingNotFound
    | AlreadyProcessed(status: Status)
      /** "Time slot already booked. This request was auto-rejected." */
    | AutoRejected
      /** "Done. Status updated to ..." */
    | Done(newStatus: Status)
      /** The result e-mail failed; the page errors but the update is kept. */
    | RenderError

  datatype PageResult = PageResult(outcome: PageOutcome, db: Db)

  /**
   The decision on the PENDING record `i`, then the result e-mail: an
   auto-rejection reports itself and sends no e-mail, a normal decision
   reports the new status, or errors when its e-mail fails.
   */
  function Settle(rs: seq<Booking>, i: nat, act: Action, mailSucceeds: bool): (r: PageResult)
    requires i < |rs| && rs[i].status == Pending
    ensures r.db.Configured? && |r.db.records| == |rs|
    ensures ResolvedAt(rs, i, act, r.db.records[i].status, r.outcome.AutoRejected?, r.db.records)
    ensures r.outcome.AutoRejected? || r.outcome.Done? || r.outcome.RenderError?
    ensures r.outcome.Done? ==> r.outcome.newStatus == r.db.records[i].status && mailSucceeds
    ensures r.outcome.RenderError? ==> !mailSucceeds
  {
    var b := rs[i];
    if act == Confirm && HasConfirmedAt(rs, b.date, b.time) then
      PageResult(AutoRejected, Configured(SetStatus(rs, i, Rejected)))
    else
      var newStatus := if act == Confirm then Confirmed else Rejected;
      var rs' := SetStatus(rs, i, newStatus);
      if mailSucceeds then PageResult(Done(newStatus), Configured(rs'))
      else PageResult(RenderError, Configured(rs'))
  }

  /** `token` and `action` are the link's query parameters ("" when missing). */
  function TokenDecide(token: string, action: string, db: Db, mailSucceeds: bool): (r: PageResult)
    ensures token == "" || ParseAction(action).None? ==> r == PageResult(InvalidLink, db)
    ensures token != "" && ParseAction(action).Some? && db.Unconfigured? ==> r == PageResult(DbNotConfigured, db)
    ensures r.outcome.BookingNotFound? <==>
      token != "" && ParseAction(action).Some? && db.Configured? && !TokenInUse(db.records, token)
    ensures r.outcome.AlreadyProcessed? ==>
      r.db == db && r.outcome.status != Pending
      && exists i :: 0 <= i < |db.records| && db.records[i].decisionToken == token
                     && db.records[i].status == r.outcome.status
    ensures r.outcome.AutoRejected? || r.outcome.Done? || r.outcome.RenderError? ==>
      && token != "" && ParseAction(action).Some? && db.Configured? && r.db.Configured?
      && (exists i, s :: ResolvedAt(db.records, i, ParseAction(action).value, s, r.outcome.AutoRejected?,
                                    r.db.records)
                         && db.records[i].decisionToken == token)
    ensures r.outcome.Done? ==> r.outcome.newStatus != Pending && mailSucceeds
    ensures r.outcome.RenderError? ==> !mailSucceeds
    ensures token != "" && ParseAction(action).Some? && db.Configured? && TokenInUse(db.records, token) ==>
      var i := FindByToken(db.records, token).value;
      && (db.records[i].status != Pending ==> r == PageResult(AlreadyProcessed(db.records[i].status), db))
      && (db.records[i].status == Pending ==>
            && r.db.Configured? && |r.db.records| == |db.records|
            && ResolvedAt(db.records, i, ParseAction(action).value, r.db.records[i].status,
                          r.outcome.AutoRejected?, r.db.records)
            && (r.outcome.AutoRejected? || r.outcome.Done? || r.outcome.RenderError?)
            && (r.outcome.Done? ==> r.outcome.newStatus == r.db.records[i].status)
            && (!r.outcome.AutoRejected? ==> (r.outcome.Done? <==> mailSucceeds)))
    ensures (|| r.outcome.InvalidLink? || r.outcome.DbNotConfigured? || r.outcome.BookingNotFound?
             || r.outcome.AlreadyProcessed?) ==> r.db == db
  {
    if token == "" || ParseAction(action).None? then PageResult(InvalidLink, db)
    else if db.Unconfigured? then PageResult(DbNotConfigured, db)
    else
      var rs := db.records;
      match FindByToken(rs, token)
      case None => PageResult(BookingNotFound, db)
      case Some(i) =>
        var b := rs[i];
        if b.status != Pending then PageResult(AlreadyProcessed(b.status), db)
        else
          var r := Settle(rs, i, ParseAction(action).value, mailSucceeds);
          assert ResolvedAt(db.records, i, ParseAction(action).value, r.db.records[i].status, r.outcome.AutoRejected?,
                            r.db.records)
            && db.records[i].decisionToken == token;
          r
  }

  /**
   From any store with at most one CONFIRMED record per slot, a decision by
   link keeps at most one CONFIRMED record per slot.
   */
  lemma TokenDecidePreservesAtMostOneConfirmed(token: string, action: string, rs: seq<Booking>, mailSucceeds: bool)
    requires AtMostOneConfirmed(rs)
    ensures AtMostOneConfirmed(TokenDecide(token, action, Configured(rs), mailSucceeds).db.records)
  {
    var r := TokenDecide(token, action, Configured(rs), mailSucceeds);
    if r.db != Configured(rs) {
      var i := FindByToken(rs, token).value;
      SetStatusKeepsAtMostOneConfirmed(rs, i, r.db.records[i].status);
    }
  }

  /** A decision by link keeps at most one PENDING-or-CONFIRMED record per slot. */
  lemma TokenDecidePreservesAtMostOneOccupying(token: string, action: string, rs: seq<Booking>, mailSucceeds: bool)
    requires AtMostOneOccupying(rs)
    ensures AtMostOneOccupying(TokenDecide(token, action, Configured(rs), mailSucceeds).db.records)
  {
    var r := TokenDecide(token, action, Configured(rs), mailSucceeds);
    if r.db != Configured(rs) {
      var i := FindByToken(rs, token).value;
      SetStatusKeepsAtMostOneOccupying(rs, i, r.db.records[i].status);
    }
  }

  /** A decision by link keeps ids and tokens unique. */
  lemma TokenDecidePreservesUniqueKeys(token: string, action: string, rs: seq<Booking>, mailSucceeds: bool)
    requires UniqueKeys(rs)
    ensures UniqueKeys(TokenDecide(token, action, Configured(rs), mailSucceeds).db.records)
  {
  }

  /** Following the same link again reports "Already processed" with the stored status and changes nothing. */
  lemma TokenDecideIdempotent(token: string, action: string, rs: seq<Booking>, m1: bool, m2: bool)
    ensures var r := TokenDecide(token, action, Configured(rs), m1);
      r.db != Configured(rs) ==>
        && TokenDecide(token, action, r.db, m2).db == r.db
        && TokenDecide(token, action, r.db, m2).outcome.AlreadyProcessed?
  {
    var r := TokenDecide(token, action, Configured(rs), m1);
    if r.db != Configured(rs) {
      var i := FindByToken(rs, token).value;
      var rs' := r.db.records;
      assert forall k :: 0 <= k < |rs| ==> rs'[k].decisionToken == rs[k].decisionToken;
      assert FindByToken(rs', token) == Some(i);
    }
  }

  /**
   For the same booking and action, the link and the admin route store the
   same result, and report it alike: already processed, auto-rejected, or
   updated to the same status.
   */
  lemma TokenAgreesWithAdmin(adminSecret: string, rs: seq<Booking>, i: nat, action: string, mailSucceeds: bool)
    requires UniqueKeys(rs) && i < |rs|
    requires adminSecret != "" && rs[i].id != "" && rs[i].decisionToken != ""
    requires ParseAction(action).Some?
    ensures var t := TokenDecide(rs[i].decisionToken, action, Configured(rs), mailSucceeds);
      var a := AdminDecision.AdminDecide(adminSecret, Some(adminSecret), rs[i].id, action, Configured(rs));
      && t.db == a.db
      && (t.outcome.AlreadyProcessed? <==> a.outcome.AlreadyProcessed?)
      && (t.outcome.AlreadyProcessed? ==> t.outcome.status == a.outcome.booking.status)
      && (t.outcome.AutoRejected? <==> a.outcome.Decided? && a.outcome.autoRejected)
      && (t.outcome.Done? ==> a.outcome.Decided? && a.outcome.booking.status == t.outcome.newStatus)
  {
    FindUnique(rs, i);
  }
}

=== FILE: validator.dfy ===
/**
 The booking request schema: length bounds on every field and the
 Gmail-only e-mail pattern `^[^\s@]+@(gmail\.com|googlemail\.com)$` with the
 case-insensitive flag.
 */
module Validator {
  import opened Text

  datatype BookingRequest = BookingRequest(date: string, time: string, name: string, phone: string, email: string)

  datatype Field = DateField | TimeField | NameField | PhoneField | EmailField

  const GMAIL_DOMAIN: string := "gmail.com"
  const GOOGLEMAIL_DOMAIN: string := "googlemail.com"

  /** The characters the two allowed domains are spelled with: lower-case letters and the dot. */
  predicate DomainChar(c: char) {
    'a' <= c <= 'z' || c == '.'
  }

  /** An allowed domain, once lower-cased, is spelled with domain characters only. */
  lemma AllowedDomainChars(d: string)
    requires AllowedDomain(d)
    ensures forall j :: 0 <= j < |d| ==> DomainChar(ToLowerAscii(d)[j])
  {
    var g, gm := GMAIL_DOMAIN, GOOGLEMAIL_DOMAIN;
    assert forall j :: 0 <= j < |g| ==> DomainChar(g[j]);
    assert forall j :: 0 <= j < |gm| ==> DomainChar(gm[j]);
  }

  /** A character of the local part: matched by the class `[^\s@]`. */
  predicate LocalChar(c: char) {
    !IsJsSpace(c) && c != '@'
  }

  /** The alternative `(gmail\.com|googlemail\.com)` under the case-insensitive flag. */
  predicate AllowedDomain(d: string) {
    EqualIgnoringAsciiCase(d, GMAIL_DOMAIN) || EqualIgnoringAsciiCase(d, GOOGLEMAIL_DOMAIN)
  }

  /**
   The regular expression, run as its matcher does: consume local-part
   characters (`started` once at least one was consumed), then require `@`
   and an allowed domain running to the end of the input.
   */
  function MatchLocal(s: string, started: bool): bool
  {
    if |s| == 0 then false
    else if s[0] == '@' then started && AllowedDomain(s[1..])
    else if IsJsSpace(s[0]) then false
    else MatchLocal(s[1..], true)
  }

  function GmailRegex(email: string): bool {
    MatchLocal(email, false)
  }

  /**
   The shape the pattern describes, read from the current position: the `@`
   at position `k`, only local-part characters before it (at least one
   overall, counting those already consumed when `started`), and an allowed
   domain after it.
   */
  ghost predicate ShapeFrom(s: string, started: bool, k: int) {
    && 0 <= k < |s| && (started || k > 0) && s[k] == '@'
    && (forall j :: 0 <= j < k ==> LocalChar(s[j]))
    && AllowedDomain(s[k + 1..])
  }

  /** A non-empty local part free of white space and `@`, then `@`, then an allowed domain. */
  ghost predicate GmailShape(email: string) {
    exists k :: ShapeFrom(email, false, k)
  }

  lemma {:induction false} MatchLocalShape(s: string, started: bool)
    ensures MatchLocal(s, started) <==> exists k :: ShapeFrom(s, started, k)
  {
    if |s| > 0 && s[0] != '@' && !IsJsSpace(s[0]) {
      MatchLocalShape(s[1..], true);
      if MatchLocal(s, started) {
        var k :| ShapeFrom(s[1..], true, k);
        assert s[k + 1 + 1..] == s[1..][k + 1..];
        assert ShapeFrom(s, started, k + 1);
      }
      if exists k :: ShapeFrom(s, started, k) {
        var k :| ShapeFrom(s, started, k);
        assert s[1..][k - 1 + 1..] == s[k + 1..];
        assert ShapeFrom(s[1..], true, k - 1);
      }
    } else if |s| > 0 && s[0] == '@' {
      if MatchLocal(s, started) {
        assert ShapeFrom(s, started, 0);
      }
      forall k | ShapeFrom(s, started, k)
        ensures MatchLocal(s, started)
      {
        assert !LocalChar(s[0]);
      }
    } else if |s| > 0 {
      forall k | 0 <= k < |s|
        ensures !ShapeFrom(s, started, k)
      {
        assert !LocalChar(s[0]) && s[0] != '@';
      }
    }
  }

  /**
   The pattern accepts exactly the e-mails with a non-empty local part free
   of white space and `@`, followed by `@gmail.com` or `@googlemail.com` in
   any letter case.
   */
  lemma GmailRegexMeaning(email: string)
    ensures GmailRegex(email) <==> GmailShape(email)
  {
    MatchLocalShape(email, false);
  }

  /** Both allowed domains are written in lower case, so each matches itself. */
  lemma DomainsLowerCase()
    ensures ToLowerAscii(GMAIL_DOMAIN) == GMAIL_DOMAIN && ToLowerAscii(GOOGLEMAIL_DOMAIN) == GOOGLEMAIL_DOMAIN
    ensures AllowedDomain(GMAIL_DOMAIN) && AllowedDomain(GOOGLEMAIL_DOMAIN)
  {
    var g, gm := GMAIL_DOMAIN, GOOGLEMAIL_DOMAIN;
    assert forall i :: 0 <= i < |g| ==> DomainChar(g[i]);
    assert forall i :: 0 <= i < |gm| ==> DomainChar(gm[i]);
    ToLowerAsciiKeeps(g);
    ToLowerAsciiKeeps(gm);
  }

  /** The upper-case spelling of gmail.com lower-cases to it. */
  lemma UpperGmailDomain()
    ensures ToLowerAscii("GMAIL.COM") == GMAIL_DOMAIN
  {
    var u := "GMAIL.COM";
    assert forall i :: 0 <= i < |u| ==> LowerAscii(u[i]) == GMAIL_DOMAIN[i];
  }

  /** Both domains pass, in any letter case. */
  lemma GmailRegexAccepts()
    ensures GmailRegex("a@gmail.com") && GmailRegex("a@googlemail.com") && GmailRegex("A@GMAIL.COM")
  {
    DomainsLowerCase();
    assert GmailRegex("a@gmail.com") by {
      var e := "a@gmail.com";
      assert e[2..] == GMAIL_DOMAIN;
      assert ShapeFrom(e, false, 1);
      GmailRegexMeaning(e);
    }
    assert GmailRegex("a@googlemail.com") by {
      var e := "a@googlemail.com";
      assert e[2..] == GOOGLEMAIL_DOMAIN;
      assert ShapeFrom(e, false, 1);
      GmailRegexMeaning(e);
    }
    assert GmailRegex("A@GMAIL.COM") by {
      var e := "A@GMAIL.COM";
      assert e[2..] == "GMAIL.COM";
      UpperGmailDomain();
      assert ShapeFrom(e, false, 1);
      GmailRegexMeaning(e);
    }
  }

  /** Another domain, a truncated domain and white space in the local part all fail. */
  lemma GmailRegexRejects()
    ensures !GmailRegex("a@yahoo.com") && !GmailRegex("a@gmail.co") && !GmailRegex("a b@gmail.com")
  {
    assert "a@yahoo.com"[1..] == "@yahoo.com" && "@yahoo.com"[1..] == "yahoo.com";
    assert ToLowerAscii("yahoo.com")[0] == 'y';
    assert "a@gmail.co"[1..] == "@gmail.co" && "@gmail.co"[1..] == "gmail.co";
    assert "a b@gmail.com"[1..] == " b@gmail.com";
  }

  /** The fields that fail their rule, as the schema's error report lists them. */
  function FailingFields(req: BookingRequest): set<Field> {
    (if |req.date| < 10 then {DateField} else {})
    + (if |req.time| < 4 then {TimeField} else {})
    + (if !(1 <= |req.name| <= 50) then {NameField} else {})
    + (if !(6 <= |req.phone| <= 30) then {PhoneField} else {})
    + (if !GmailRegex(req.email) then {EmailField} else {})
  }

  predicate Valid(req: BookingRequest) {
    FailingFields(req) == {}
  }

  /**
   A request is valid exactly when the date has at least 10 characters, the
   time at least 4 (length only, no shape check), the name 1..50, the phone
   6..30, and the e-mail has the Gmail shape.
   */
  lemma ValidMeaning(req: BookingRequest)
    ensures Valid(req) <==>
      && |req.date| >= 10 && |req.time| >= 4
      && 1 <= |req.name| <= 50 && 6 <= |req.phone| <= 30
      && GmailShape(req.email)
  {
    GmailRegexMeaning(req.email);
    if !GmailRegex(req.email) {
      assert EmailField in FailingFields(req);
    }
    if !(1 <= |req.name| <= 50) {
      assert NameField in FailingFields(req);
    }
    if !(6 <= |req.phone| <= 30) {
      assert PhoneField in FailingFields(req);
    }
    if |req.date| < 10 {
      assert DateField in FailingFields(req);
    }
    if |req.time| < 4 {
      assert TimeField in FailingFields(req);
    }
  }
}
